=== FILE: README.md ===
# secrypt core, modelled in Dafny

secrypt keeps secret files in a repository as AES-256-CBC encrypted copies
(`<file>.enc`). One key per environment lives in an unversioned
`secrypt.keys` file. This project models the core of `src/index.js`:

- the command-line tokenizer and the configuration resolution of `getConfig`:
  environment selection, project prefix discovery through `findUp`, the
  choice of configuration source, the key file, the `SECRYPT_KEY`
  override and the final merge;
- the key file format (`readKeyFile` / `writeKeyFile`) and its round trip;
- the 64-byte header of an encrypted file (`encryptFile` / `decryptFile`),
  with key derivation and the cipher as uninterpreted functions;
- `getFileList`, which expands the per-environment file map, filters it and
  fails when nothing is left;
- `validateConfig` and the per-file loops of `commandEncrypt` and
  `commandDecrypt`.

JavaScript objects are sequences of (name, value) pairs in insertion order.
Assigning to an existing name keeps its position (`JsObject`). JavaScript
`a || b` on strings is `Config.Or`, where the empty string is falsy. An
unset environment variable reads as `""`. The file system and `require` are
a `Platform.Host` value. It provides existence tests, text reads, module
loads and the `path` functions `join`, `resolve` and `relative`. The ancestors
of the working directory are an explicit input, nearest first. The per-file
loops read and write a `Commands.Files` value, so what one entry writes is
what a later entry reads.

Modules, in dependency order: `Wrappers`, `JsObject`, `Text`, `Platform`,
`KeyFile`, `Header`, `Locator`, `Cli`, `Config`, `FileList`, `Commands`.

Behaviours of the code worth noting:

- The prefix search runs one full `findUp` per marker, in marker order
  (`secrypt.keys`, `secrypt.config.js`, `secrypt.config.json`,
  `package.json`). So a key file in an ancestor beats a `package.json` in the
  working directory (`Config.KeysFileBeatsNearerPackage`).
- A `--config` file that cannot be loaded does not raise an error. It falls
  through to the next configuration source (`Config.LoadFileConfig`).
- The format version byte is written as 0 and never checked on decryption
  (`Header.VersionByteIgnored`).
- The help text of `src/index.js` (lines 130-131) gives `secrypt.config.json`
  as the default configuration file and `dev` as the default environment. The
  code tries `secrypt.config.js` before `secrypt.config.json`
  (`Config.LoadFileConfig`, lines 231-232) and selects `all` when no
  environment is given (`Config.SelectEnvironment`, line 220). The model
  follows the code.

## Model

| member | source | states |
|---|---|---|
| JsObject.Get | src/index.js:264 | a property lookup is absent exactly when the name is not a key, and otherwise returns the value stored under that name |
| JsObject.Assign | src/index.js:339 | after `o[k] = v`, `k` reads `v` and every other name reads as before; an existing key keeps its position, a new key is appended; distinct keys stay distinct |
| JsObject.AssignAll | src/index.js:249-251 | after spreading entries into an object, each name reads the value of its last entry, or the object's old value when no entry names it |
| JsObject.AssignAllOrder | src/index.js:337-340 | assigning entries keeps the object's names in place and appends each new name once, in the order it first occurs |
| JsObject.AssignAllDistinct | src/index.js:249-251 | spreading entries with distinct names into an empty object gives back exactly those entries in order |
| JsObject.Without | src/index.js:252-255 | the computed properties written after the spread hide whatever the spread put under those names and leave every other name alone |
| Text.Trim | src/index.js:338 | `trim()` returns a text with no JavaScript whitespace at either end, drawn from the input, and leaves an already trimmed text unchanged |
| Text.TrimCutsEnds | src/index.js:338 | `trim()` removes only whitespace and only at the ends: the result is a contiguous slice of the input with nothing but whitespace before and after it |
| Text.Split | src/index.js:336 | `split(d)` yields at least one piece, no piece contains `d`, and joining the pieces with `d` gives back the input |
| Text.SplitJoin | src/index.js:338-339 | splitting on `d` after joining `d`-free pieces with `d` gives back the pieces |
| KeyFile.ParseLineValid | src/index.js:336-339 | every kept line yields a name that starts with a word character, is trimmed and has no `:`, and a secret whose `:`-separated pieces are trimmed |
| KeyFile.ParseLineAtFirstColon | src/index.js:338-339 | a line with a `:` splits at its first `:`: the name is the trimmed text before it, and the secret is the rest with every `:`-separated piece trimmed |
| KeyFile.ParseLineWithoutColon | src/index.js:338-339 | a line without a `:` is a trimmed name with an empty secret |
| KeyFile.Parse | src/index.js:335-341 | the parsed keys have distinct names in the order each first occurs in the file, each name holds the secret of its last occurrence, and every entry is one the writer can reproduce |
| KeyFile.ReadKeyFile | src/index.js:331-346 | the result is absent exactly when the file cannot be read; otherwise it is the parse of the text, later lines winning |
| KeyFile.Serialize | src/index.js:362-365 | the written text always ends with a newline |
| KeyFile.SplitSerialize | src/index.js:362-365 | the written text splits into one `name: secret` line per key, in order, plus a final empty piece |
| KeyFile.RoundTrip | src/index.js:362-365 | reading back what `writeKeyFile` wrote gives the same keys in the same order, for distinct names and secrets without surrounding whitespace |
| KeyFile.ParseIsStable | src/index.js:331-346 | writing a parsed key file and parsing it again changes nothing |
| KeyFile.SerializeExample | src/__specs__/index.spec.js:148-162 | the keys `env1: test1`, `env2: test2` are written as two lines and a trailing newline |
| Header.BuildHeader | src/index.js:163-164 | the header is 64 bytes: version byte 0, 15 zero bytes, the salt at bytes 16-47 and the IV at bytes 48-63 |
| Header.Subarray | src/index.js:143-144 | a subarray is never longer than the buffer, is the exact slice when the bounds fit, and is empty when it starts past the end |
| Header.ReadHeader | src/index.js:142-144 | a file of at least 64 bytes yields its salt and IV slices and a body start of 64; a shorter file yields an IV shorter than 16 bytes |
| Header.EncryptFile | src/index.js:154-170 | the encrypted file starts with the header of the drawn salt and IV, reading its header recovers them, and the rest is the ciphertext under the derived key |
| Header.DecryptFile | src/index.js:141-152 | a file shorter than 64 bytes fails with an invalid IV; otherwise the body is decrypted with the key derived from the stored salt and the stored IV, and a failed padding check is an error |
| Header.RoundTrip | src/index.js:141-170 | when the cipher inverts itself, decrypting an encrypted file with the same key gives back the plaintext for every salt and IV |
| Header.VersionByteIgnored | src/index.js:142-148 | changing the version byte of a file does not change the outcome of decryption |
| Locator.FindUpIndex | src/index.js:177-193 | the index found is the first directory of the chain holding the file, and there is none exactly when no directory holds it |
| Locator.FindUp | src/index.js:177-193 | `findUp` returns the nearest directory that contains the file, or `''` when neither the directory nor any ancestor does |
| Cli.StripDashes | src/index.js:211 | stripping removes only leading dashes, and what remains does not start with a dash |
| Cli.DashCountIrrelevant | src/index.js:211-212 | an option written with one dash and the same option written with two dashes set the same key |
| Cli.ShortAlias | src/index.js:200-212 | the short names `-c`, `-e` and `-p` set `config`, `environment` and `prefix` |
| Cli.OptionValue | src/index.js:212 | an option's value is never empty: it is the next token when that is non-empty, and `"true"` when the next token is missing or empty |
| Cli.ScanFollowsRoles | src/index.js:203-218 | the `forEach` loop with its `skipNext` flag, entered at any token, ends with the options and parameters of the left-to-right role reading |
| Cli.Tokenize | src/index.js:200-218 | the parameters are the non-option tokens that are not option values, in order; each option holds the value of its last occurrence; option names are distinct |
| Config.SelectEnvironment | src/index.js:220 | the environment is never empty: the command line wins over `NODE_ENV`, and `all` is the fallback |
| Config.KeyTarget | src/index.js:240 | `SECRYPT_KEY` targets the selected environment, and `dev` when all are selected; never `all` |
| Config.LocateProject | src/index.js:224-227 | the project directory is the `findUp` result of the first marker that is found anywhere up the chain, or `''` when none is |
| Config.ResolvePrefix | src/index.js:222-228 | the command-line prefix wins, then `SECRYPT_PREFIX`, then the located project, then `cwd`; a non-empty `cwd` gives a non-empty prefix |
| Config.KeysFileBeatsNearerPackage | src/index.js:224-227 | a key file in an ancestor makes that ancestor the prefix even when `cwd` holds a `package.json` |
| Config.LoadFileConfig | src/index.js:230-234 | a loadable `--config` file is the configuration; otherwise the first loadable of `secrypt.config.js`, `secrypt.config.json` and the `secrypt` field of `package.json`, else an empty configuration |
| Config.FirstLoaded | src/index.js:230-233 | the search yields nothing exactly when no candidate loads, and otherwise the configuration of a loadable candidate with no loadable candidate before it |
| Config.LoadFileConfigIsFirstLoaded | src/index.js:230-234 | the source cascade equals the first loadable of the `--config` file (when named), `secrypt.config.js` and `secrypt.config.json`, falling back to the `secrypt` field of `package.json` and then to an empty configuration |
| Config.KeyFilePath | src/index.js:236 | the key file is the configured `keyFile` joined to the prefix, and `secrypt.keys` joined to the prefix when none or an empty name is configured |
| Config.BaseKeys | src/index.js:237 | a readable key file supplies the keys even when it is empty; only an unreadable one defers to the configuration's keys, and then to no keys |
| Config.ApplyKeyOverride | src/index.js:239-241 | a set `SECRYPT_KEY` replaces the key of the target environment and no other; unset, the keys are untouched |
| Config.MergeSettings | src/index.js:249-255 | a command-line option overrides the same file setting, other file settings pass through, and computed names never come from either |
| Config.GetConfig | src/index.js:195-257 | the environment is the one `--environment` or `NODE_ENV` selects (never empty, `all` by default); the prefix is the one the prefix search resolves (non-empty for a non-empty `cwd`); the files and settings come from the chosen configuration, with command-line options overriding settings; the parameters are the tokenizer's; the key file is the one the configuration names under the prefix; the keys are the key file's (or the configuration's when it is unreadable) with `SECRYPT_KEY` keying the target environment |
| Config.EnvValuesExample | src/__specs__/index.spec.js:55-66 | with `NODE_ENV=prod` and `SECRYPT_KEY=test` the environment is `prod` and its key is `test` |
| Config.DefaultConfigExample | src/__specs__/index.spec.js:12-21 | the empty-host case of the default test (no file exists anywhere, not even a `package.json`): with no arguments or variables, the environment is `all`, there are no files or keys, and the prefix is `cwd` |
| FileList.EncryptedPath | src/index.js:247 | the encrypted path is the decrypted path with `.enc` appended |
| FileList.EntryFor | src/index.js:269-276 | each entry's encrypted path is its decrypted path plus `.enc`, and its key is its environment's key |
| FileList.EntriesFor | src/index.js:268-277 | one entry per configured path, in configured order |
| FileList.FilterKept | src/index.js:280-294 | the filter keeps exactly the entries that pass, in their original order, each as many times as it occurs in the input |
| FileList.GetFileList | src/index.js:259-301 | the call fails exactly when no expanded entry passes the filter; a success is non-empty, keeps expansion order, and holds each passing entry as many times as the expansion does |
| FileList.ExpandMembers | src/index.js:263-278 | an entry is expanded exactly when it is the entry of a configured path of a selected environment |
| FileList.FileListMembers | src/index.js:259-301 | the list holds exactly the entries of configured paths of keyed, selected environments that exist on one side and match a parameter when any is given, each with `.enc` beside it |
| FileList.SelectedEnvironmentKey | src/index.js:264-275 | with one environment selected, every listed file uses that environment's key |
| Commands.ValidateConfig | src/index.js:348-360 | validation passes exactly when there is an environment, at least one file entry and at least one key, and reports the first missing one |
| Commands.ResolvedConfigHasEnvironment | src/index.js:349-351 | a configuration from `getConfig` never fails the environment check |
| Commands.ValidateAsWritten | src/index.js:353-359 | the check as written rejects everything the intended check rejects, and reports a missing environment first |
| Commands.SingleZeroEnvironmentRejected | src/index.js:353-355 | one environment named `0` is reported as "Files are not configured" by the check as written and accepted by the intended one |
| Commands.AsWrittenAgreesOnWordNames | src/index.js:353-359 | when the first file environment and the first key name start with a letter or `_`, the check as written agrees with the intended one |
| Commands.PrepareCommand | src/index.js:47-49 | both commands validate first and then list files; a validation error takes precedence, and a success is the non-empty file list |
| Commands.DecryptAll | src/index.js:47-56 | the loop runs over the list in order, each file decrypted from the files as the earlier entries left them and written to its decrypted path; a success holds one such write per entry, and a failure stops at the first entry whose file cannot be read or decrypted, after the writes of the entries before it, with that file's error |
| Commands.EncryptAll | src/index.js:60-69 | the loop runs over the list in order, each file encrypted from the files as the earlier entries left them, with its own salt and IV, and written to its encrypted path; a success holds one such write per entry, and a failure stops at the first entry whose decrypted file cannot be read |
| Commands.EncryptReadsEarlierOutput | src/index.js:64-67 | an entry whose decrypted path is the previous entry's encrypted path encrypts what that entry has just written |
| Commands.EncryptReadsOriginals | src/index.js:64-67 | when no entry reads a path another entry writes, every file is encrypted from its content before the loop, and the loop succeeds when all of them can be read |
| Commands.DecryptRestores | src/index.js:51-54 | decrypting files whose encrypted paths hold encryptions under the entries' keys succeeds and writes each plaintext to its decrypted path |
| Commands.BatchRoundTrip | src/index.js:47-69 | when no entry reads a path another entry writes, decrypting the files an encryption run leaves gives back every plaintext at its decrypted path |

## Left out

- AES-256-CBC, PBKDF2-SHA512 and `crypto.randomBytes` are foreign calls. The cipher and the key derivation are uninterpreted functions (`Header.Cipher`), and the drawn salt and IV are inputs.
- Streams, `fs` reads and writes, partial writes and I/O errors other than an unreadable input are not modelled. A file's content is one byte sequence.
- `path.join`, `path.resolve`, `path.relative` and `path.parse` are host functions without a model. The ancestor chain `findUp` walks is an input.
- `require` caching, module extension resolution and the difference between `.js` and `.json` loading are behind `Host.load`. A module that loads but exports a falsy value (`null`, `false`, `0`, `""`) makes the `||` chain move on, so `Host.load` stands for it with `None`; a falsy `secrypt` field of `package.json` is likewise `None`. The model does not distinguish these from a module that fails to load.
- `main`, `commandHelp`, `commandInit`, logging and the process exit code are left out; they are I/O around the modelled decisions.
- JavaScript orders integer-like property names (`"0"`, `"1"`) before the others. `JsObject` keeps pure insertion order.
- Names inherited from `Object.prototype`, such as `constructor` or `__proto__`, behave like any other name.
- Command-line options named `files`, `params` or the `*Fn` hooks, and configuration properties overriding the `*Fn` hooks, are not modelled. In the code they replace the structured fields or functions.
- A batch that fails part-way leaves the files handled before the failure written. The model's failure result carries the error only; the writes before it are stated by the contract, not returned.
- A file whose processing fails part-way is not modelled: `encryptFile` opens the encrypted file for writing before its plaintext is read, and `decryptFile` opens the decrypted file before deciphering, so a failing file may be left truncated.
- Commands.PrepareCommand: runs the intended `Commands.ValidateConfig`, not the check as written. The two differ only for names such as `0` that convert to a number below 1 (`Commands.SingleZeroEnvironmentRejected`); `Commands.AsWrittenAgreesOnWordNames` shows they agree when the first names start with a letter or `_`.
- Strings are sequences of code points, not UTF-16 code units.
- Commands.ValidateAsWritten: the number conversion covers blank text, signed and unsigned decimal numerals and `Infinity`. Exponent forms and `0x`/`0o`/`0b` literals count as not-a-number here. Numerals are compared exactly, with no rounding to a double, so a numeral such as `0.99999999999999999` that rounds to 1 as a double counts as below 1 here.
- Config.ResolvePrefix: when a non-empty command-line prefix resolves to `""`, or a non-empty `SECRYPT_PREFIX` joins to `""`, it falls through like in the code, but no ensures covers those cases.
- The tokenizer example from the project's unit tests (`file1 -e prod file2 -p <dir> file3`) is not a lemma; `Cli.Tokenize` states the general rule.

## Findings

| source | as written | input that shows it | evidently intended | confidence | as-written member | corrected member |
|---|---|---|---|---|---|---|
| src/index.js:353-359 | `Object.keys(config.files) < 1` compares the array of names with 1, which converts the comma-joined names to a number | `files` and `keys` each with one environment named `0`: `"0" < 1` holds, so "Files are not configured" is raised although one environment is configured | fail only when there are no file entries (and, for keys, no keys) | high; not executed | Commands.ValidateAsWritten, Commands.SingleZeroEnvironmentRejected | Commands.ValidateConfig |

=== FILE: cli.dfy ===
/**
 * The command-line tokenizer of `getConfig`. A token starting with `-` is an
 * option: its leading dashes are stripped, the short names `c`, `e` and `p`
 * stand for `config`, `environment` and `prefix`, and the option always takes
 * the next token as its value (`"true"` when there is none or it is empty).
 * Every other token is a positional parameter.
 */
module Cli {
  import opened JsObject

  /** The parsed command line: options in first-assignment order, and positional parameters. */
  datatype Cli = Cli(options: Pairs<string>, params: seq<string>)

  predicate IsOptionToken(arg: string)
  {
    |arg| > 0 && arg[0] == '-'
  }

  /** `arg.replace(/^-+/, '')`. */
  function StripDashes(arg: string): (r: string)
    ensures |r| <= |arg| && r == arg[|arg| - |r|..]
    ensures forall i :: 0 <= i < |arg| - |r| ==> arg[i] == '-'
    ensures |r| > 0 ==> r[0] != '-'
  {
    if |arg| > 0 && arg[0] == '-' then StripDashes(arg[1..]) else arg
  }

  /** `aliases[key] || key`. */
  function OptionName(arg: string): string
  {
    var key := StripDashes(arg);
    if key == "c" then "config"
    else if key == "e" then "environment"
    else if key == "p" then "prefix"
    else key
  }

  /** One or two leading dashes in front of a name are stripped alike. */
  lemma StripOneOrTwoDashes(arg: string, name: string)
    requires |name| > 0 && name[0] != '-'
    requires arg == ['-'] + name || arg == ['-', '-'] + name
    ensures StripDashes(arg) == name
  {
    assert (['-'] + name)[1..] == name;
    assert (['-', '-'] + name)[1..] == ['-'] + name;
  }

  /** `-x` and `--x` set the same option, whatever the name. */
  lemma DashCountIrrelevant(name: string)
    requires |name| > 0 && name[0] != '-'
    ensures OptionName(['-'] + name) == OptionName(['-', '-'] + name)
  {
    StripOneOrTwoDashes(['-'] + name, name);
    StripOneOrTwoDashes(['-', '-'] + name, name);
  }

  /** A single dash in front of a single non-dash character is stripped. */
  lemma StripShort(short: char)
    requires short != '-'
    ensures StripDashes(['-', short]) == [short]
  {
    assert ['-', short][1..] == [short];
  }

  /** The short names `c`, `e` and `p` stand for `config`, `environment` and `prefix`. */
  lemma ShortAlias(short: char, long: string)
    requires || (short == 'c' && long == "config")
             || (short == 'e' && long == "environment")
             || (short == 'p' && long == "prefix")
    ensures OptionName(['-', short]) == long
  {
    StripShort(short);
    if short == 'c' {
      assert [short] == "c";
    } else if short == 'e' {
      assert [short] == "e";
    } else {
      assert [short] == "p";
    }
  }

  /** `args[i + 1] || 'true'`. */
  function OptionValue(args: seq<string>, i: nat): (v: string)
    ensures v != ""
    ensures i + 1 < |args| && args[i + 1] != "" ==> v == args[i + 1]
    ensures !(i + 1 < |args| && args[i + 1] != "") ==> v == "true"
  {
    if i + 1 < |args| && args[i + 1] != "" then args[i + 1] else "true"
  }

  /** The `args.forEach` loop from position `i`, with its `skipNext` flag. */
  function Scan(args: seq<string>, i: nat, skipNext: bool, acc: Cli): Cli
    requires i <= |args|
    decreases |args| - i
  {
    if i == |args| then acc
    else if skipNext then Scan(args, i + 1, false, acc)
    else if IsOptionToken(args[i]) then
      Scan(args, i + 1, true, acc.(options := Assign(acc.options, OptionName(args[i]), OptionValue(args, i))))
    else Scan(args, i + 1, false, acc.(params := acc.params + [args[i]]))
  }

  /** What each token is, read left to right independently of the loop above. */
  datatype Role = OptionRole | ValueRole | ParamRole

  function RoleAt(args: seq<string>, i: nat): Role
    requires i < |args|
  {
    if i > 0 && RoleAt(args, i - 1) == OptionRole then ValueRole
    else if IsOptionToken(args[i]) then OptionRole
    else ParamRole
  }

  /** The tokens among the first `n` that are parameters, in order. */
  function ParamsBefore(args: seq<string>, n: nat): seq<string>
    requires n <= |args|
  {
    if n == 0 then []
    else ParamsBefore(args, n - 1) + (if RoleAt(args, n - 1) == ParamRole then [args[n - 1]] else [])
  }

  /** The (name, value) settings of the options among the first `n` tokens, in order. */
  function OptionsBefore(args: seq<string>, n: nat): Pairs<string>
    requires n <= |args|
  {
    if n == 0 then []
    else
      OptionsBefore(args, n - 1)
      + (if RoleAt(args, n - 1) == OptionRole then [(OptionName(args[n - 1]), OptionValue(args, n - 1))] else [])
  }

  /** The loop, entered at any token boundary, finishes with exactly the role-based reading. */
  lemma {:induction false} ScanFollowsRoles(args: seq<string>, i: nat, skipNext: bool, acc: Cli)
    requires i <= |args|
    requires skipNext == (i > 0 && RoleAt(args, i - 1) == OptionRole)
    requires acc.params == ParamsBefore(args, i)
    requires acc.options == AssignAll([], OptionsBefore(args, i))
    ensures Scan(args, i, skipNext, acc) == Cli(AssignAll([], OptionsBefore(args, |args|)), ParamsBefore(args, |args|))
    decreases |args| - i
  {
    if i < |args| {
      var os := OptionsBefore(args, i);
      if skipNext {
        assert RoleAt(args, i) == ValueRole;
        assert OptionsBefore(args, i + 1) == os;
        assert ParamsBefore(args, i + 1) == acc.params;
        ScanFollowsRoles(args, i + 1, false, acc);
      } else if IsOptionToken(args[i]) {
        assert RoleAt(args, i) == OptionRole;
        var name, value := OptionName(args[i]), OptionValue(args, i);
        var next := acc.(options := Assign(acc.options, name, value));
        assert OptionsBefore(args, i + 1) == os + [(name, value)];
        AssignAllSnoc([], os, name, value);
        assert ParamsBefore(args, i + 1) == acc.params;
        ScanFollowsRoles(args, i + 1, true, next);
      } else {
        assert RoleAt(args, i) == ParamRole;
        assert OptionsBefore(args, i + 1) == os;
        ScanFollowsRoles(args, i + 1, false, acc.(params := acc.params + [args[i]]));
      }
    }
  }

  /**
   * The tokenizer: the parameters are the parameter tokens in their original
   * order, and each option holds the value given at its last occurrence.
   */
  function Tokenize(args: seq<string>): (cli: Cli)
    ensures cli.params == ParamsBefore(args, |args|)
    ensures forall name :: Get(cli.options, name) == Last(OptionsBefore(args, |args|), name)
    ensures DistinctKeys(cli.options)
  {
    ScanFollowsRoles(args, 0, false, Cli([], []));
    Scan(args, 0, false, Cli([], []))
  }
}

=== FILE: commands.dfy ===
/**
 * The checks and the per-file loop shared by `commandEncrypt` and
 * `commandDecrypt`: validate the configuration, build the file list, then
 * process the files one by one in list order, stopping at the first failure.
 */
module Commands {
  import opened Wrappers
  import opened JsObject
  import opened Text
  import opened Platform
  import opened Config
  import opened FileList
  import opened Header

  datatype ConfigError = EnvironmentNotConfigured | FilesNotConfigured | KeyRequired

  datatype CommandError =
    | Invalid(reason: ConfigError)
    | NoFiles
    | ReadFailed(path: string)
    | Crypto(cause: CryptoError)

  /** `validateConfig`, as intended: no environment, no configured files, or no keys is an error, checked in that order. */
  function ValidateConfig(c: Config): (r: Option<ConfigError>)
    ensures r.None? <==> c.environment != "" && |c.files| > 0 && |c.keys| > 0
    ensures r == Some(EnvironmentNotConfigured) <==> c.environment == ""
    ensures r == Some(FilesNotConfigured) <==> c.environment != "" && |c.files| == 0
    ensures r == Some(KeyRequired) <==> c.environment != "" && |c.files| > 0 && |c.keys| == 0
  {
    if c.environment == "" then Some(EnvironmentNotConfigured)
    else if |c.files| == 0 then Some(FilesNotConfigured)
    else if |c.keys| == 0 then Some(KeyRequired)
    else None
  }

  /** A resolved configuration always names an environment, so the first check never fires after `getConfig`. */
  lemma ResolvedConfigHasEnvironment(host: Host, args: seq<string>, env: Env, cwd: string, parents: seq<string>)
    ensures ValidateConfig(GetConfig(host, args, env, cwd, parents)) != Some(EnvironmentNotConfigured)
  {
  }

  predicate AllDigits(s: string)
  {
    forall i :: 0 <= i < |s| ==> '0' <= s[i] <= '9'
  }

  /** A decimal numeral without sign or exponent: digits, optionally a `.` and more digits, at least one digit in all. */
  predicate DecimalNumeral(u: string)
  {
    var parts := Split(u, '.');
    || (|parts| == 1 && |parts[0]| > 0 && AllDigits(parts[0]))
    || (|parts| == 2 && AllDigits(parts[0]) && AllDigits(parts[1]) && |parts[0]| + |parts[1]| > 0)
  }

  /**
   * `Number(s) < 1` for the numeric forms modelled here: blank text (0),
   * signed or unsigned decimal numerals, and `Infinity`. Every other text
   * converts to NaN, and NaN is not below 1.
   */
  predicate NumberBelowOne(s: string)
  {
    var t := Trim(s);
    if t == "" then true
    else if t[0] == '-' then t[1..] == "Infinity" || DecimalNumeral(t[1..])
    else
      var u := if t[0] == '+' then t[1..] else t;
      DecimalNumeral(u) && forall i :: 0 <= i < |Split(u, '.')[0]| ==> Split(u, '.')[0][i] == '0'
  }

  /** `String(Object.keys(o))`: the key names joined with commas. */
  function KeyNamesText<V>(o: Pairs<V>): string
  {
    Join(KeyList(o), ',')
  }

  /** `validateConfig` as written: `Object.keys(x) < 1` compares the joined key names, converted to a number, with 1. */
  function ValidateAsWritten(c: Config): (r: Option<ConfigError>)
    ensures ValidateConfig(c).Some? ==> r.Some?
    ensures c.environment == "" ==> r == Some(EnvironmentNotConfigured)
  {
    if c.environment == "" then Some(EnvironmentNotConfigured)
    else if NumberBelowOne(KeyNamesText(c.files)) then Some(FilesNotConfigured)
    else if NumberBelowOne(KeyNamesText(c.keys)) then Some(KeyRequired)
    else None
  }

  /** One environment called `0` is taken for "no files configured" by the check as written, and accepted by the intended one. */
  lemma SingleZeroEnvironmentRejected()
    ensures ValidateAsWritten(Config("0", "/p", "/p/secrypt.keys", [("0", "k")], [("0", ["a"])], [], []))
            == Some(FilesNotConfigured)
    ensures ValidateConfig(Config("0", "/p", "/p/secrypt.keys", [("0", "k")], [("0", ["a"])], [], [])) == None
  {
    SingleNameText("0", ["a"]);
    ZeroBelowOne();
  }

  /** The names of a map with one entry are that entry's name. */
  lemma SingleNameText<V>(name: string, v: V)
    ensures KeyNamesText([(name, v)]) == name
  {
    assert KeyList([(name, v)]) == [name];
  }

  /** `Number("0") < 1`. */
  lemma ZeroBelowOne()
    ensures NumberBelowOne("0")
  {
    assert Trimmed("0");
    assert Split("0", '.') == ["0"];
  }

  /** A name starting with a letter or `_`. */
  predicate WordName(name: string)
  {
    |name| > 0 && IsWordChar(name[0]) && !('0' <= name[0] <= '9')
  }

  /** The joined names of a map start with the first character of its first name. */
  lemma NamesTextStart<V>(o: Pairs<V>)
    requires |o| > 0 && |o[0].0| > 0
    ensures |KeyNamesText(o)| > 0 && KeyNamesText(o)[0] == o[0].0[0]
  {
    var names := KeyList(o);
    assert names[0] == o[0].0;
    if |names| > 1 {
      assert KeyNamesText(o) == names[0] + [','] + Join(names[1..], ',');
    }
  }

  /** A text whose first character is a letter or `_` is never below 1. */
  lemma WordTextNotBelowOne(text: string)
    requires |text| > 0 && IsWordChar(text[0]) && !('0' <= text[0] <= '9')
    ensures !NumberBelowOne(text)
  {
    var c := text[0];
    assert !IsWhitespace(c);
    TrimKeepsFirst(text);
    var t := Trim(text);
    assert t != "" && t[0] == c && c != '-' && c != '+';
    FirstPieceStartsWith(t);
    assert !AllDigits(Split(t, '.')[0]);
  }

  /** The first `.`-separated piece of a text that does not start with `.` starts with the text's first character. */
  lemma FirstPieceStartsWith(t: string)
    requires |t| > 0 && t[0] != '.'
    ensures |Split(t, '.')[0]| > 0 && Split(t, '.')[0][0] == t[0]
  {
    assert t == [t[0]] + t[1..];
    SplitConsChar(t[0], t[1..], '.');
  }

  /** The joined names of a map whose first name starts with a letter or `_` are never below 1. */
  lemma WordNamesNotBelowOne<V>(o: Pairs<V>)
    requires |o| > 0 && WordName(o[0].0)
    ensures !NumberBelowOne(KeyNamesText(o))
  {
    NamesTextStart(o);
    WordTextNotBelowOne(KeyNamesText(o));
  }

  /** When the first name of each map starts with a letter or `_`, the check as written agrees with the intended one. */
  lemma AsWrittenAgreesOnWordNames(c: Config)
    requires |c.files| > 0 ==> WordName(c.files[0].0)
    requires |c.keys| > 0 ==> WordName(c.keys[0].0)
    ensures ValidateAsWritten(c) == ValidateConfig(c)
  {
    if |c.files| > 0 { WordNamesNotBelowOne(c.files); }
    if |c.keys| > 0 { WordNamesNotBelowOne(c.keys); }
  }

  /** What both commands do before touching any file: validate, then list; a validation error wins. */
  function PrepareCommand(c: Config, host: Host): (r: Result<seq<FileEntry>, CommandError>)
    ensures ValidateConfig(c).Some? ==> r == Failure(Invalid(ValidateConfig(c).value))
    ensures ValidateConfig(c).None? && GetFileList(c, host).Failure? ==> r == Failure(NoFiles)
    ensures r.Success? ==> |r.value| > 0 && GetFileList(c, host) == Success(r.value)
  {
    match ValidateConfig(c)
    case Some(reason) => Failure(Invalid(reason))
    case None =>
      match GetFileList(c, host)
      case Failure(_) => Failure(NoFiles)
      case Success(list) => Success(list)
  }

  /** The file system the loops read and write: the content at each path, `None` when it cannot be read. */
  type Files = string -> Option<seq<byte>>

  /** One file written by a loop: its path and its new content. */
  type Write = (string, seq<byte>)

  /** `path` now holds `data`; every other path is unchanged. */
  function Written(files: Files, path: string, data: seq<byte>): (after: Files)
    ensures after(path) == Some(data)
    ensures forall p :: p != path ==> after(p) == files(p)
  {
    p => if p == path then Some(data) else files(p)
  }

  /** The file system once `writes` have been made, in order. */
  function After(files: Files, writes: seq<Write>): Files
    decreases |writes|
  {
    if |writes| == 0 then files else After(Written(files, writes[0].0, writes[0].1), writes[1..])
  }

  /** Writes to other paths leave a path's content alone. */
  lemma {:induction false} AfterUntouched(files: Files, writes: seq<Write>, p: string)
    requires forall k :: 0 <= k < |writes| ==> writes[k].0 != p
    ensures After(files, writes)(p) == files(p)
    decreases |writes|
  {
    if |writes| > 0 {
      assert forall k :: 0 <= k < |writes[1..]| ==> writes[1..][k] == writes[k + 1];
      AfterUntouched(Written(files, writes[0].0, writes[0].1), writes[1..], p);
    }
  }

  /** A path written once holds what was written to it. */
  lemma {:induction false} AfterWrittenOnce(files: Files, writes: seq<Write>, k: nat)
    requires k < |writes|
    requires forall j :: 0 <= j < |writes| && j != k ==> writes[j].0 != writes[k].0
    ensures After(files, writes)(writes[k].0) == Some(writes[k].1)
    decreases |writes|
  {
    var next := Written(files, writes[0].0, writes[0].1);
    var tail := writes[1..];
    assert forall j :: 0 <= j < |tail| ==> tail[j] == writes[j + 1];
    if k == 0 {
      AfterUntouched(next, tail, writes[0].0);
    } else {
      AfterWrittenOnce(next, tail, k - 1);
    }
  }

  /** The first `i + 1` writes of `[w] + ws` leave the files as the first `i` of `ws` do after `w`. */
  lemma {:induction false} AfterCons(files: Files, w: Write, ws: seq<Write>, i: nat)
    requires i <= |ws|
    ensures After(files, ([w] + ws)[..i + 1]) == After(Written(files, w.0, w.1), ws[..i])
  {
    assert ([w] + ws)[..i + 1][1..] == ws[..i];
  }

  /** Making `w` and then `ws` leaves the files as making `ws` after `w`. */
  lemma {:induction false} AfterFirst(files: Files, w: Write, ws: seq<Write>)
    ensures After(files, [w] + ws) == After(Written(files, w.0, w.1), ws)
  {
    assert ([w] + ws)[1..] == ws;
  }

  /** Decrypting `e` from `files` makes write `w`: the decryption of its encrypted file, to its decrypted path. */
  predicate DecryptsTo(cipher: Cipher, files: Files, e: FileEntry, w: Write)
  {
    && w.0 == e.decrypted.full
    && files(e.encrypted.full).Some?
    && DecryptFile(cipher, files(e.encrypted.full).value, e.key) == Success(w.1)
  }

  /** The file of `e` can be read and decrypted with its key. */
  predicate Decrypts(cipher: Cipher, files: Files, e: FileEntry)
  {
    files(e.encrypted.full).Some? && DecryptFile(cipher, files(e.encrypted.full).value, e.key).Success?
  }

  /** The error a file that does not decrypt ends the loop with. */
  function FileError(cipher: Cipher, files: Files, e: FileEntry): CommandError
  {
    match files(e.encrypted.full)
    case None => ReadFailed(e.encrypted.full)
    case Some(data) =>
      match DecryptFile(cipher, data, e.key)
      case Failure(err) => Crypto(err)
      case Success(_) => ReadFailed(e.encrypted.full)
  }

  /** `writes` are what the decryption loop makes for the first entries of `list`, each reading the files the earlier ones left. */
  predicate DecryptRun(cipher: Cipher, files: Files, list: seq<FileEntry>, writes: seq<Write>)
    requires |writes| <= |list|
  {
    forall i :: 0 <= i < |writes| ==> DecryptsTo(cipher, After(files, writes[..i]), list[i], writes[i])
  }

  /** The decryption loop makes `writes` and then stops with `err` at the next entry. */
  predicate DecryptStops(cipher: Cipher, files: Files, list: seq<FileEntry>, writes: seq<Write>, err: CommandError)
  {
    && |writes| < |list|
    && DecryptRun(cipher, files, list, writes)
    && !Decrypts(cipher, After(files, writes), list[|writes|])
    && err == FileError(cipher, After(files, writes), list[|writes|])
  }

  /** Step `i` of the run that starts with `w` is `w` itself, or step `i - 1` of the run from the files `w` leaves. */
  lemma {:induction false} DecryptStepCons(cipher: Cipher, files: Files, list: seq<FileEntry>, w: Write, ws: seq<Write>, i: nat)
    requires 0 < |list| && |ws| < |list| && i <= |ws|
    requires DecryptsTo(cipher, files, list[0], w)
    requires DecryptRun(cipher, Written(files, w.0, w.1), list[1..], ws)
    ensures DecryptsTo(cipher, After(files, ([w] + ws)[..i]), list[i], ([w] + ws)[i])
  {
    if i == 0 {
      assert ([w] + ws)[..0] == [];
    } else {
      var j := i - 1;
      AfterCons(files, w, ws, j);
      assert ([w] + ws)[i] == ws[j] && list[1..][j] == list[i];
      assert DecryptsTo(cipher, After(Written(files, w.0, w.1), ws[..j]), list[1..][j], ws[j]);
    }
  }

  /** A first step followed by a run from the files it leaves is a run. */
  lemma {:induction false} DecryptRunCons(cipher: Cipher, files: Files, list: seq<FileEntry>, w: Write, ws: seq<Write>)
    requires 0 < |list| && |ws| < |list|
    requires DecryptsTo(cipher, files, list[0], w)
    requires DecryptRun(cipher, Written(files, w.0, w.1), list[1..], ws)
    ensures DecryptRun(cipher, files, list, [w] + ws)
    ensures After(files, [w] + ws) == After(Written(files, w.0, w.1), ws)
  {
    forall i | 0 <= i < |[w] + ws|
      ensures DecryptsTo(cipher, After(files, ([w] + ws)[..i]), list[i], ([w] + ws)[i])
    {
      DecryptStepCons(cipher, files, list, w, ws, i);
    }
    AfterFirst(files, w, ws);
  }

  /** A first step followed by a stop from the files it leaves is a stop. */
  lemma {:induction false} DecryptStopsCons(cipher: Cipher, files: Files, list: seq<FileEntry>, w: Write, err: CommandError)
    requires 0 < |list|
    requires DecryptsTo(cipher, files, list[0], w)
    requires exists ws :: DecryptStops(cipher, Written(files, w.0, w.1), list[1..], ws, err)
    ensures exists ws :: DecryptStops(cipher, files, list, ws, err)
  {
    var ws: seq<Write> :| DecryptStops(cipher, Written(files, w.0, w.1), list[1..], ws, err);
    DecryptRunCons(cipher, files, list, w, ws);
    assert list[1..][|ws|] == list[|[w] + ws|];
    assert DecryptStops(cipher, files, list, [w] + ws, err);
  }

  /**
   * The loop of `commandDecrypt`: decrypt each listed file into its decrypted
   * path, in list order, each entry reading the files as the entries before
   * it left them; the first file that cannot be read or decrypted ends the
   * loop with its error.
   */
  function DecryptAll(cipher: Cipher, files: Files, list: seq<FileEntry>): (r: Result<seq<Write>, CommandError>)
    ensures r.Success? ==> |r.value| == |list| && DecryptRun(cipher, files, list, r.value)
    ensures r.Failure? ==> exists ws :: DecryptStops(cipher, files, list, ws, r.error)
    decreases |list|
  {
    if |list| == 0 then Success([])
    else
      var e := list[0];
      assert After(files, []) == files;
      assert DecryptRun(cipher, files, list, []);
      match files(e.encrypted.full)
      case None =>
        assert DecryptStops(cipher, files, list, [], ReadFailed(e.encrypted.full));
        Failure(ReadFailed(e.encrypted.full))
      case Some(data) =>
        match DecryptFile(cipher, data, e.key)
        case Failure(err) =>
          assert DecryptStops(cipher, files, list, [], Crypto(err));
          Failure(Crypto(err))
        case Success(plain) =>
          var w := (e.decrypted.full, plain);
          match DecryptAll(cipher, Written(files, w.0, w.1), list[1..])
          case Failure(err) =>
            DecryptStopsCons(cipher, files, list, w, err);
            Failure(err)
          case Success(rest) =>
            DecryptRunCons(cipher, files, list, w, rest);
            Success([w] + rest)
  }

  /** The salt and IV drawn for one file have the sizes `randomBytes` is asked for. */
  predicate DrawSized(draw: (seq<byte>, seq<byte>))
  {
    |draw.0| == SaltSize && |draw.1| == IvSize
  }

  /** Encrypting `e` from `files` with `draw` makes write `w`: the encryption of its decrypted file, to its encrypted path. */
  predicate EncryptsTo(cipher: Cipher, files: Files, e: FileEntry, draw: (seq<byte>, seq<byte>), w: Write)
  {
    && w.0 == e.encrypted.full
    && files(e.decrypted.full).Some?
    && DrawSized(draw)
    && w.1 == EncryptFile(cipher, files(e.decrypted.full).value, e.key, draw.0, draw.1)
  }

  /** `writes` are what the encryption loop makes for the first entries of `list`, each reading the files the earlier ones left. */
  predicate EncryptRun(cipher: Cipher, files: Files, list: seq<FileEntry>, draws: seq<(seq<byte>, seq<byte>)>, writes: seq<Write>)
    requires |writes| <= |list| == |draws|
  {
    forall i :: 0 <= i < |writes| ==> EncryptsTo(cipher, After(files, writes[..i]), list[i], draws[i], writes[i])
  }

  /** The encryption loop makes `writes` and then stops at the next entry, whose decrypted file cannot be read. */
  predicate EncryptStops(cipher: Cipher, files: Files, list: seq<FileEntry>, draws: seq<(seq<byte>, seq<byte>)>,
                         writes: seq<Write>, err: CommandError)
    requires |list| == |draws|
  {
    && |writes| < |list|
    && EncryptRun(cipher, files, list, draws, writes)
    && After(files, writes)(list[|writes|].decrypted.full).None?
    && err == ReadFailed(list[|writes|].decrypted.full)
  }

  /** Step `i` of the run that starts with `w` is `w` itself, or step `i - 1` of the run from the files `w` leaves. */
  lemma {:induction false} EncryptStepCons(cipher: Cipher, files: Files, list: seq<FileEntry>, draws: seq<(seq<byte>, seq<byte>)>,
                        w: Write, ws: seq<Write>, i: nat)
    requires |list| == |draws| && 0 < |list| && |ws| < |list| && i <= |ws|
    requires EncryptsTo(cipher, files, list[0], draws[0], w)
    requires EncryptRun(cipher, Written(files, w.0, w.1), list[1..], draws[1..], ws)
    ensures EncryptsTo(cipher, After(files, ([w] + ws)[..i]), list[i], draws[i], ([w] + ws)[i])
  {
    if i == 0 {
      assert ([w] + ws)[..0] == [];
    } else {
      var j := i - 1;
      AfterCons(files, w, ws, j);
      assert ([w] + ws)[i] == ws[j] && list[1..][j] == list[i] && draws[1..][j] == draws[i];
      assert EncryptsTo(cipher, After(Written(files, w.0, w.1), ws[..j]), list[1..][j], draws[1..][j], ws[j]);
    }
  }

  /** A first step followed by a run from the files it leaves is a run. */
  lemma {:induction false} EncryptRunCons(cipher: Cipher, files: Files, list: seq<FileEntry>, draws: seq<(seq<byte>, seq<byte>)>,
                       w: Write, ws: seq<Write>)
    requires |list| == |draws| && 0 < |list| && |ws| < |list|
    requires EncryptsTo(cipher, files, list[0], draws[0], w)
    requires EncryptRun(cipher, Written(files, w.0, w.1), list[1..], draws[1..], ws)
    ensures EncryptRun(cipher, files, list, draws, [w] + ws)
    ensures After(files, [w] + ws) == After(Written(files, w.0, w.1), ws)
  {
    forall i | 0 <= i < |[w] + ws|
      ensures EncryptsTo(cipher, After(files, ([w] + ws)[..i]), list[i], draws[i], ([w] + ws)[i])
    {
      EncryptStepCons(cipher, files, list, draws, w, ws, i);
    }
    AfterFirst(files, w, ws);
  }

  /** A first step followed by a stop from the files it leaves is a stop. */
  lemma {:induction false} EncryptStopsCons(cipher: Cipher, files: Files, list: seq<FileEntry>, draws: seq<(seq<byte>, seq<byte>)>,
                         w: Write, err: CommandError)
    requires |list| == |draws| && 0 < |list|
    requires EncryptsTo(cipher, files, list[0], draws[0], w)
    requires exists ws :: EncryptStops(cipher, Written(files, w.0, w.1), list[1..], draws[1..], ws, err)
    ensures exists ws :: EncryptStops(cipher, files, list, draws, ws, err)
  {
    var ws: seq<Write> :| EncryptStops(cipher, Written(files, w.0, w.1), list[1..], draws[1..], ws, err);
    EncryptRunCons(cipher, files, list, draws, w, ws);
    assert list[1..][|ws|] == list[|[w] + ws|];
    assert EncryptStops(cipher, files, list, draws, [w] + ws, err);
  }

  /**
   * The loop of `commandEncrypt`: encrypt each listed file into its encrypted
   * path with the salt and IV drawn for it, in list order, each entry reading
   * the files as the entries before it left them; the first file that cannot
   * be read ends the loop.
   */
  function EncryptAll(cipher: Cipher, files: Files, list: seq<FileEntry>, draws: seq<(seq<byte>, seq<byte>)>)
    : (r: Result<seq<Write>, CommandError>)
    requires |draws| == |list|
    requires forall i :: 0 <= i < |draws| ==> DrawSized(draws[i])
    ensures r.Success? ==> |r.value| == |list| && EncryptRun(cipher, files, list, draws, r.value)
    ensures r.Failure? ==> exists ws :: EncryptStops(cipher, files, list, draws, ws, r.error)
    decreases |list|
  {
    if |list| == 0 then Success([])
    else
      var e := list[0];
      assert After(files, []) == files;
      assert EncryptRun(cipher, files, list, draws, []);
      match files(e.decrypted.full)
      case None =>
        assert EncryptStops(cipher, files, list, draws, [], ReadFailed(e.decrypted.full));
        Failure(ReadFailed(e.decrypted.full))
      case Some(plain) =>
        assert DrawSized(draws[0]);
        var w := (e.encrypted.full, EncryptFile(cipher, plain, e.key, draws[0].0, draws[0].1));
        assert forall i :: 0 <= i < |draws[1..]| ==> draws[1..][i] == draws[i + 1];
        match EncryptAll(cipher, Written(files, w.0, w.1), list[1..], draws[1..])
        case Failure(err) =>
          EncryptStopsCons(cipher, files, list, draws, w, err);
          Failure(err)
        case Success(rest) =>
          EncryptRunCons(cipher, files, list, draws, w, rest);
          Success([w] + rest)
  }

  /** An entry whose decrypted file is the previous entry's encrypted file encrypts what that entry just wrote. */
  lemma {:induction false} EncryptReadsEarlierOutput(cipher: Cipher, files: Files, list: seq<FileEntry>, draws: seq<(seq<byte>, seq<byte>)>)
    requires |draws| == |list| && forall i :: 0 <= i < |draws| ==> DrawSized(draws[i])
    requires |list| >= 2 && list[1].decrypted.full == list[0].encrypted.full
    requires EncryptAll(cipher, files, list, draws).Success?
    ensures var ws := EncryptAll(cipher, files, list, draws).value;
            ws[1].1 == EncryptFile(cipher, ws[0].1, list[1].key, draws[1].0, draws[1].1)
  {
    var ws := EncryptAll(cipher, files, list, draws).value;
    assert ws[..1][1..] == [];
    assert After(files, ws[..1]) == Written(files, ws[0].0, ws[0].1);
  }

  /** No encrypted path of the batch is a decrypted path of it, and no two entries share an encrypted path. */
  predicate Disjoint(list: seq<FileEntry>)
  {
    && (forall i, j :: 0 <= i < |list| && 0 <= j < |list| ==> list[i].encrypted.full != list[j].decrypted.full)
    && (forall i, j :: 0 <= i < |list| && 0 <= j < |list| && i != j ==> list[i].encrypted.full != list[j].encrypted.full)
  }

  /** With disjoint paths, encryption reads every file as it was before the loop, and so succeeds when all can be read. */
  lemma {:induction false} EncryptReadsOriginals(cipher: Cipher, files: Files, list: seq<FileEntry>, draws: seq<(seq<byte>, seq<byte>)>)
    requires |draws| == |list| && forall i :: 0 <= i < |draws| ==> DrawSized(draws[i])
    requires Disjoint(list)
    requires forall i :: 0 <= i < |list| ==> files(list[i].decrypted.full).Some?
    ensures EncryptAll(cipher, files, list, draws).Success?
    ensures forall i :: 0 <= i < |list| ==>
              EncryptAll(cipher, files, list, draws).value[i]
              == (list[i].encrypted.full, EncryptFile(cipher, files(list[i].decrypted.full).value, list[i].key, draws[i].0, draws[i].1))
  {
    var r := EncryptAll(cipher, files, list, draws);
    if r.Failure? {
      var ws: seq<Write> :| EncryptStops(cipher, files, list, draws, ws, r.error);
      assert forall k :: 0 <= k < |ws| ==> ws[k].0 == list[k].encrypted.full;
      AfterUntouched(files, ws, list[|ws|].decrypted.full);
      assert false;
    }
    forall i | 0 <= i < |list|
      ensures r.value[i] == (list[i].encrypted.full,
                             EncryptFile(cipher, files(list[i].decrypted.full).value, list[i].key, draws[i].0, draws[i].1))
    {
      var before := r.value[..i];
      assert forall k :: 0 <= k < |before| ==> before[k].0 == list[k].encrypted.full;
      AfterUntouched(files, before, list[i].decrypted.full);
    }
  }

  /** Each encrypted path of the batch holds the encryption of its plaintext under the entry's key and the salt and IV drawn for it. */
  predicate HoldsEncryptions(cipher: Cipher, files: Files, list: seq<FileEntry>, plains: seq<seq<byte>>,
                             draws: seq<(seq<byte>, seq<byte>)>)
    requires |plains| == |draws| == |list|
  {
    forall i :: 0 <= i < |list| ==>
      && DrawSized(draws[i])
      && files(list[i].encrypted.full) == Some(EncryptFile(cipher, plains[i], list[i].key, draws[i].0, draws[i].1))
  }

  /** Decrypted files written before entry `i` leave its encrypted file as it was, so it decrypts to its plaintext. */
  lemma {:induction false} RestoredAt(cipher: Cipher, files: Files, list: seq<FileEntry>, plains: seq<seq<byte>>,
                                      draws: seq<(seq<byte>, seq<byte>)>, before: seq<Write>, i: nat)
    requires Inverts(cipher)
    requires |plains| == |draws| == |list| && i < |list| && |before| <= |list| && Disjoint(list)
    requires HoldsEncryptions(cipher, files, list, plains, draws)
    requires forall k :: 0 <= k < |before| ==> before[k].0 == list[k].decrypted.full
    ensures Decrypts(cipher, After(files, before), list[i])
    ensures DecryptFile(cipher, After(files, before)(list[i].encrypted.full).value, list[i].key) == Success(plains[i])
  {
    AfterUntouched(files, before, list[i].encrypted.full);
    Header.RoundTrip(cipher, plains[i], list[i].key, draws[i].0, draws[i].1);
  }

  /** Decryption never stops on a batch whose encrypted paths hold encryptions under the entries' keys. */
  lemma {:induction false} DecryptNeverStops(cipher: Cipher, files: Files, list: seq<FileEntry>, plains: seq<seq<byte>>,
                                             draws: seq<(seq<byte>, seq<byte>)>, ws: seq<Write>, err: CommandError)
    requires Inverts(cipher)
    requires |plains| == |draws| == |list| && Disjoint(list)
    requires HoldsEncryptions(cipher, files, list, plains, draws)
    ensures !DecryptStops(cipher, files, list, ws, err)
  {
    if DecryptStops(cipher, files, list, ws, err) {
      assert forall k :: 0 <= k < |ws| ==> ws[k].0 == list[k].decrypted.full;
      RestoredAt(cipher, files, list, plains, draws, ws, |ws|);
      assert false;
    }
  }

  /** Step `i` of a complete decryption run over such a batch writes the plaintext of entry `i`. */
  lemma {:induction false} DecryptedAt(cipher: Cipher, files: Files, list: seq<FileEntry>, plains: seq<seq<byte>>,
                                       draws: seq<(seq<byte>, seq<byte>)>, writes: seq<Write>, i: nat)
    requires Inverts(cipher)
    requires |plains| == |draws| == |list| == |writes| && i < |list| && Disjoint(list)
    requires HoldsEncryptions(cipher, files, list, plains, draws)
    requires DecryptRun(cipher, files, list, writes)
    ensures writes[i] == (list[i].decrypted.full, plains[i])
  {
    var before := writes[..i];
    assert forall k :: 0 <= k < |before| ==> before[k].0 == list[k].decrypted.full;
    RestoredAt(cipher, files, list, plains, draws, before, i);
  }

  /** Decrypting from files whose encrypted paths hold encryptions under the entries' keys gives back each plaintext. */
  lemma {:induction false} DecryptRestores(cipher: Cipher, files: Files, list: seq<FileEntry>, plains: seq<seq<byte>>,
                                           draws: seq<(seq<byte>, seq<byte>)>)
    requires Inverts(cipher)
    requires |plains| == |draws| == |list| && Disjoint(list)
    requires HoldsEncryptions(cipher, files, list, plains, draws)
    ensures DecryptAll(cipher, files, list).Success?
    ensures forall i :: 0 <= i < |list| ==> DecryptAll(cipher, files, list).value[i] == (list[i].decrypted.full, plains[i])
  {
    var r := DecryptAll(cipher, files, list);
    if r.Failure? {
      var ws: seq<Write> :| DecryptStops(cipher, files, list, ws, r.error);
      DecryptNeverStops(cipher, files, list, plains, draws, ws, r.error);
      assert false;
    }
    forall i | 0 <= i < |list|
      ensures r.value[i] == (list[i].decrypted.full, plains[i])
    {
      DecryptedAt(cipher, files, list, plains, draws, r.value, i);
    }
  }

  /**
   * A batch encrypted and then decrypted with the same keys gives back every
   * plaintext, whatever salts and IVs were drawn, when no entry reads a path
   * another entry writes.
   */
  lemma {:induction false} BatchRoundTrip(cipher: Cipher, files: Files, list: seq<FileEntry>, draws: seq<(seq<byte>, seq<byte>)>)
    requires Inverts(cipher)
    requires |draws| == |list| && forall i :: 0 <= i < |draws| ==> DrawSized(draws[i])
    requires Disjoint(list)
    requires forall i :: 0 <= i < |list| ==> files(list[i].decrypted.full).Some?
    ensures EncryptAll(cipher, files, list, draws).Success?
    ensures var encrypted := After(files, EncryptAll(cipher, files, list, draws).value);
            && DecryptAll(cipher, encrypted, list).Success?
            && forall i :: 0 <= i < |list| ==>
                 DecryptAll(cipher, encrypted, list).value[i] == (list[i].decrypted.full, files(list[i].decrypted.full).value)
  {
    EncryptReadsOriginals(cipher, files, list, draws);
    var ws := EncryptAll(cipher, files, list, draws).value;
    var plains := seq(|list|, i requires 0 <= i < |list| => files(list[i].decrypted.full).value);
    forall i | 0 <= i < |list|
      ensures After(files, ws)(list[i].encrypted.full)
              == Some(EncryptFile(cipher, plains[i], list[i].key, draws[i].0, draws[i].1))
    {
      AfterWrittenOnce(files, ws, i);
    }
    assert HoldsEncryptions(cipher, After(files, ws), list, plains, draws);
    DecryptRestores(cipher, After(files, ws), list, plains, draws);
  }
}

=== FILE: config.dfy ===
/**
 * `getConfig`: resolves the environment, the project prefix, the file
 * configuration and the keys from the command line, the process environment
 * and the files around the working directory, and merges them into one
 * configuration.
 */
module Config {
  import opened Wrappers
  import opened JsObject
  import opened Platform
  import opened Locator
  import opened Cli
  import opened KeyFile

  const AllEnvironments := "all"
  const DefaultKeyEnvironment := "dev"
  const KeysFileName := "secrypt.keys"
  const JsConfigName := "secrypt.config.js"
  const JsonConfigName := "secrypt.config.json"
  const PackageName := "package.json"

  /** The project markers, in the order the prefix search tries them. */
  const Markers := [KeysFileName, JsConfigName, JsonConfigName, PackageName]

  /** Properties of the result that are always the computed values, whatever the sources say. */
  const Computed: set<string> := {"environment", "prefix", "keyFile", "keys", "files", "params"}

  datatype Config = Config(
    environment: string,        // selected environment, or "all"
    prefix: string,             // project root
    keyFile: string,            // key file path
    keys: Pairs<string>,        // environment name -> key
    files: Pairs<seq<string>>,  // environment name -> decrypted paths, relative to the prefix
    params: seq<string>,        // positional filters
    settings: Pairs<string>)    // every other setting: file configuration overridden by the command line

  /** `a || b` on strings: the empty string is falsy. */
  function Or(a: string, b: string): string
  {
    if a != "" then a else b
  }

  /** The value of an option, `""` when it was not given. */
  function OptionText(cli: Cli, name: string): string
  {
    match Get(cli.options, name)
    case None => ""
    case Some(v) => v
  }

  /** `cli.environment || env.NODE_ENV || 'all'`. */
  function SelectEnvironment(cliEnvironment: string, nodeEnv: string): (r: string)
    ensures r != ""
    ensures cliEnvironment != "" ==> r == cliEnvironment
    ensures cliEnvironment == "" && nodeEnv != "" ==> r == nodeEnv
    ensures cliEnvironment == "" && nodeEnv == "" ==> r == AllEnvironments
  {
    Or(cliEnvironment, Or(nodeEnv, AllEnvironments))
  }

  /** The environment whose key `SECRYPT_KEY` sets: `dev` stands in for "all". */
  function KeyTarget(environment: string): (r: string)
    ensures environment != AllEnvironments ==> r == environment
    ensures environment == AllEnvironments ==> r == DefaultKeyEnvironment
    ensures r != AllEnvironments
  {
    if environment == AllEnvironments then DefaultKeyEnvironment else environment
  }

  /** The first marker, in marker order, that some directory of the chain contains. */
  function LocateProject(host: Host, markers: seq<string>, chain: seq<string>): (r: string)
    ensures (forall m :: 0 <= m < |markers| ==> FindUp(host, markers[m], chain) == "") ==> r == ""
    ensures forall m :: (0 <= m < |markers| && FindUp(host, markers[m], chain) != ""
                         && forall n :: 0 <= n < m ==> FindUp(host, markers[n], chain) == "")
                        ==> r == FindUp(host, markers[m], chain)
  {
    if |markers| == 0 then ""
    else
      var rest := LocateProject(host, markers[1..], chain);
      LocateProjectStep(host, markers, chain, rest);
      Or(FindUp(host, markers[0], chain), rest)
  }

  /** When the first marker is missing, the later markers decide, each keeping its position. */
  lemma LocateProjectStep(host: Host, markers: seq<string>, chain: seq<string>, rest: string)
    requires |markers| > 0
    requires (forall m :: 0 <= m < |markers[1..]| ==> FindUp(host, markers[1..][m], chain) == "") ==> rest == ""
    requires forall m :: (0 <= m < |markers[1..]| && FindUp(host, markers[1..][m], chain) != ""
                          && forall n :: 0 <= n < m ==> FindUp(host, markers[1..][n], chain) == "")
                         ==> rest == FindUp(host, markers[1..][m], chain)
    ensures (forall m :: 0 <= m < |markers| ==> FindUp(host, markers[m], chain) == "") ==>
              Or(FindUp(host, markers[0], chain), rest) == ""
    ensures forall m :: (0 <= m < |markers| && FindUp(host, markers[m], chain) != ""
                         && forall n :: 0 <= n < m ==> FindUp(host, markers[n], chain) == "")
                        ==> Or(FindUp(host, markers[0], chain), rest) == FindUp(host, markers[m], chain)
  {
    var tail := markers[1..];
    assert forall m :: 0 <= m < |tail| ==> tail[m] == markers[m + 1];
    forall m | 0 <= m < |markers| && FindUp(host, markers[m], chain) != ""
               && forall n :: 0 <= n < m ==> FindUp(host, markers[n], chain) == ""
      ensures Or(FindUp(host, markers[0], chain), rest) == FindUp(host, markers[m], chain)
    {
      if m > 0 {
        LocateProjectLater(host, markers, chain, m);
      }
    }
  }

  /** A marker found after missing ones is, in the tail, found after missing ones one position earlier. */
  lemma {:induction false} LocateProjectLater(host: Host, markers: seq<string>, chain: seq<string>, m: nat)
    requires 0 < m < |markers|
    requires forall n :: 0 <= n < m ==> FindUp(host, markers[n], chain) == ""
    ensures markers[1..][m - 1] == markers[m]
    ensures forall n :: 0 <= n < m - 1 ==> FindUp(host, markers[1..][n], chain) == ""
  {
    forall n | 0 <= n < m - 1
      ensures FindUp(host, markers[1..][n], chain) == ""
    {
      assert markers[1..][n] == markers[n + 1];
    }
  }

  /**
   * The prefix: the command-line prefix resolved against `cwd`, else
   * `SECRYPT_PREFIX` joined to `cwd`, else the first marker found above
   * `cwd`, else `cwd`. `parents` are the ancestors of `cwd`, nearest first.
   */
  function ResolvePrefix(host: Host, cliPrefix: string, envPrefix: string, cwd: string, parents: seq<string>): (r: string)
    ensures cliPrefix != "" && host.resolve(cwd, cliPrefix) != "" ==> r == host.resolve(cwd, cliPrefix)
    ensures cliPrefix == "" && envPrefix != "" && host.join(cwd, envPrefix) != "" ==> r == host.join(cwd, envPrefix)
    ensures cliPrefix == "" && envPrefix == "" ==> r == Or(LocateProject(host, Markers, [cwd] + parents), cwd)
    ensures cwd != "" ==> r != ""
  {
    Or(if cliPrefix != "" then host.resolve(cwd, cliPrefix) else "",
       Or(if envPrefix != "" then host.join(cwd, envPrefix) else "",
          Or(LocateProject(host, Markers, [cwd] + parents), cwd)))
  }

  /**
   * The marker order wins over distance: with no prefix given, a key file in
   * an ancestor makes that ancestor the prefix even when `cwd` itself holds a
   * `package.json`.
   */
  lemma KeysFileBeatsNearerPackage(host: Host, cwd: string, parents: seq<string>, k: nat)
    requires k < |parents| && parents[k] != ""
    requires Holds(host, cwd, PackageName)
    requires Holds(host, parents[k], KeysFileName)
    requires !Holds(host, cwd, KeysFileName)
    requires forall j :: 0 <= j < k ==> !Holds(host, parents[j], KeysFileName)
    ensures ResolvePrefix(host, "", "", cwd, parents) == parents[k]
  {
    var chain := [cwd] + parents;
    assert chain[k + 1] == parents[k];
    assert forall j :: 0 <= j < k + 1 ==> !Holds(host, chain[j], KeysFileName) by {
      forall j | 0 <= j < k + 1
        ensures !Holds(host, chain[j], KeysFileName)
      {
        if j > 0 { assert chain[j] == parents[j - 1]; }
      }
    }
    assert FindUp(host, Markers[0], chain) == parents[k];
  }

  /** The module `require` finds at `path` read as a configuration, if it loads. */
  function LoadConfig(host: Host, path: string): Option<FileConfig>
  {
    match host.load(path)
    case None => None
    case Some(m) => Some(m.asConfig)
  }

  /** The `secrypt` property of the `package.json` at `path`, if both exist. */
  function LoadPackageField(host: Host, path: string): Option<FileConfig>
  {
    match host.load(path)
    case None => None
    case Some(m) => m.secrypt
  }

  /**
   * The file configuration: the `--config` file, else `secrypt.config.js`,
   * else `secrypt.config.json`, else the `secrypt` field of `package.json`,
   * else empty. A `--config` file that does not load falls through to the
   * next source instead of failing.
   */
  function LoadFileConfig(host: Host, cliConfig: string, prefix: string): (fc: FileConfig)
    ensures cliConfig != "" && LoadConfig(host, host.resolve(prefix, cliConfig)).Some? ==>
              fc == LoadConfig(host, host.resolve(prefix, cliConfig)).value
    ensures (cliConfig == "" || LoadConfig(host, host.resolve(prefix, cliConfig)).None?) ==>
              fc == match LoadConfig(host, host.join(prefix, JsConfigName))
                    case Some(c) => c
                    case None =>
                      match LoadConfig(host, host.join(prefix, JsonConfigName))
                      case Some(c) => c
                      case None => LoadPackageField(host, host.join(prefix, PackageName)).GetOr(EmptyFileConfig)
  {
    var explicit := if cliConfig != "" then LoadConfig(host, host.resolve(prefix, cliConfig)) else None;
    if explicit.Some? then explicit.value
    else
      match LoadConfig(host, host.join(prefix, JsConfigName))
      case Some(c) => c
      case None =>
        match LoadConfig(host, host.join(prefix, JsonConfigName))
        case Some(c) => c
        case None => LoadPackageField(host, host.join(prefix, PackageName)).GetOr(EmptyFileConfig)
  }

  /** The first path of `paths` whose module loads, read as a configuration. */
  function FirstLoaded(host: Host, paths: seq<string>): (r: Option<FileConfig>)
    ensures r.None? <==> forall i :: 0 <= i < |paths| ==> LoadConfig(host, paths[i]).None?
    ensures r.Some? ==> exists i :: 0 <= i < |paths| && r == LoadConfig(host, paths[i])
                                   && forall j :: 0 <= j < i ==> LoadConfig(host, paths[j]).None?
    decreases |paths|
  {
    if |paths| == 0 then None
    else
      var rest := FirstLoaded(host, paths[1..]);
      if LoadConfig(host, paths[0]).Some? then LoadConfig(host, paths[0])
      else
        assert forall i :: 1 <= i < |paths| ==> paths[i] == paths[1..][i - 1];
        if rest.None? then None
        else
          var i :| 0 <= i < |paths| - 1 && rest == LoadConfig(host, paths[1..][i])
                   && forall j :: 0 <= j < i ==> LoadConfig(host, paths[1..][j]).None?;
          assert rest == LoadConfig(host, paths[i + 1]);
          rest
  }

  /** The configuration files tried in turn: the `--config` file when one is named, then the `.js` and `.json` files. */
  function ConfigCandidates(host: Host, cliConfig: string, prefix: string): seq<string>
  {
    (if cliConfig != "" then [host.resolve(prefix, cliConfig)] else [])
    + [host.join(prefix, JsConfigName), host.join(prefix, JsonConfigName)]
  }

  /**
   * The configuration source cascade is a search for the first loadable
   * candidate, with the `package.json` field and then the empty configuration
   * as fallbacks.
   */
  lemma {:induction false} LoadFileConfigIsFirstLoaded(host: Host, cliConfig: string, prefix: string)
    ensures LoadFileConfig(host, cliConfig, prefix)
            == FirstLoaded(host, ConfigCandidates(host, cliConfig, prefix))
               .GetOr(LoadPackageField(host, host.join(prefix, PackageName)).GetOr(EmptyFileConfig))
  {
    var tail := [host.join(prefix, JsConfigName), host.join(prefix, JsonConfigName)];
    assert tail[1..] == [tail[1]];
    assert tail[1..][1..] == [];
    if cliConfig != "" {
      var all := ConfigCandidates(host, cliConfig, prefix);
      assert all[1..] == tail;
    }
  }

  /** `path.join(prefix, fileConfig.keyFile || 'secrypt.keys')`. */
  function KeyFilePath(host: Host, fc: FileConfig, prefix: string): (path: string)
    ensures fc.keyFile.Some? && fc.keyFile.value != "" ==> path == host.join(prefix, fc.keyFile.value)
    ensures fc.keyFile.None? || fc.keyFile.value == "" ==> path == host.join(prefix, KeysFileName)
  {
    host.join(prefix, if fc.keyFile.Some? && fc.keyFile.value != "" then fc.keyFile.value else KeysFileName)
  }

  /** The keys before any override: the key file when it can be read, even if empty, else the configuration's keys, else none. */
  function BaseKeys(host: Host, keyFile: string, fc: FileConfig): (keys: Pairs<string>)
    ensures ReadKeyFile(host, keyFile).Some? ==> keys == ReadKeyFile(host, keyFile).value
    ensures host.readText(keyFile).None? && fc.keys.Some? ==> keys == fc.keys.value
    ensures host.readText(keyFile).None? && fc.keys.None? ==> keys == []
  {
    match ReadKeyFile(host, keyFile)
    case Some(k) => k
    case None => fc.keys.GetOr([])
  }

  /** `SECRYPT_KEY`, when set, replaces the key of the target environment and nothing else. */
  function ApplyKeyOverride(keys: Pairs<string>, environment: string, secryptKey: string): (r: Pairs<string>)
    ensures secryptKey == "" ==> r == keys
    ensures secryptKey != "" ==> Get(r, KeyTarget(environment)) == Some(secryptKey)
    ensures forall k :: k != KeyTarget(environment) ==> Get(r, k) == Get(keys, k)
    ensures DistinctKeys(keys) ==> DistinctKeys(r)
  {
    if secryptKey != "" then Assign(keys, KeyTarget(environment), secryptKey) else keys
  }

  /** `{ ...fileConfig, ...cli }` for the settings that are not computed: the command line wins. */
  function MergeSettings(fileSettings: Pairs<string>, cliOptions: Pairs<string>): (r: Pairs<string>)
    requires DistinctKeys(cliOptions)
    ensures forall name :: name !in Computed && Get(cliOptions, name).Some? ==> Get(r, name) == Get(cliOptions, name)
    ensures forall name :: name !in Computed && Get(cliOptions, name).None? ==> Get(r, name) == Get(fileSettings, name)
    ensures forall name :: name in Computed ==> Get(r, name).None?
  {
    forall name
      ensures Last(cliOptions, name) == Get(cliOptions, name)
    {
      LastIsGet(cliOptions, name);
    }
    Without(AssignAll(fileSettings, cliOptions), Computed)
  }

  /** `getConfig({ args, env, cwd })`; `parents` are the ancestors of `cwd`, nearest first, ending at the root. */
  function GetConfig(host: Host, args: seq<string>, env: Env, cwd: string, parents: seq<string>): (c: Config)
    ensures c.environment == SelectEnvironment(OptionText(Tokenize(args), "environment"), EnvValue(env, "NODE_ENV"))
    ensures c.prefix == ResolvePrefix(host, OptionText(Tokenize(args), "prefix"), EnvValue(env, "SECRYPT_PREFIX"), cwd, parents)
    ensures c.files == LoadFileConfig(host, OptionText(Tokenize(args), "config"), c.prefix).files.GetOr([])
    ensures c.settings == MergeSettings(LoadFileConfig(host, OptionText(Tokenize(args), "config"), c.prefix).settings, Tokenize(args).options)
    ensures c.keys == ApplyKeyOverride(BaseKeys(host, c.keyFile, LoadFileConfig(host, OptionText(Tokenize(args), "config"), c.prefix)),
                                       c.environment, EnvValue(env, "SECRYPT_KEY"))
    ensures c.environment != ""
    ensures cwd != "" ==> c.prefix != ""
    ensures c.params == ParamsBefore(args, |args|)
    ensures OptionText(Tokenize(args), "environment") == "" && EnvValue(env, "NODE_ENV") == "" ==>
              c.environment == AllEnvironments
    ensures EnvValue(env, "SECRYPT_KEY") != "" ==> Get(c.keys, KeyTarget(c.environment)) == Some(EnvValue(env, "SECRYPT_KEY"))
    ensures c.keyFile == KeyFilePath(host, LoadFileConfig(host, OptionText(Tokenize(args), "config"), c.prefix), c.prefix)
    ensures EnvValue(env, "SECRYPT_KEY") == "" && ReadKeyFile(host, c.keyFile).Some? ==>
              c.keys == ReadKeyFile(host, c.keyFile).value
  {
    var cli := Tokenize(args);
    var environment := SelectEnvironment(OptionText(cli, "environment"), EnvValue(env, "NODE_ENV"));
    var prefix := ResolvePrefix(host, OptionText(cli, "prefix"), EnvValue(env, "SECRYPT_PREFIX"), cwd, parents);
    var fc := LoadFileConfig(host, OptionText(cli, "config"), prefix);
    var keyFile := KeyFilePath(host, fc, prefix);
    var keys := ApplyKeyOverride(BaseKeys(host, keyFile, fc), environment, EnvValue(env, "SECRYPT_KEY"));
    Config(environment, prefix, keyFile, keys, fc.files.GetOr([]), cli.params, MergeSettings(fc.settings, cli.options))
  }

  /** The project's "loads env values" test: `NODE_ENV` selects the environment and `SECRYPT_KEY` keys it. */
  lemma EnvValuesExample(host: Host, env: Env, cwd: string, parents: seq<string>)
    requires EnvValue(env, "NODE_ENV") == "prod" && EnvValue(env, "SECRYPT_KEY") == "test"
    ensures GetConfig(host, [], env, cwd, parents).environment == "prod"
    ensures Get(GetConfig(host, [], env, cwd, parents).keys, "prod") == Some("test")
  {
    assert Tokenize([]) == Cli([], []);
  }

  /**
   * The empty-host case of the project's default-configuration test: with no
   * arguments, no environment variables and no file anywhere (so no
   * `package.json` either), the environment is "all", there are no files and
   * no keys, and the prefix is `cwd`.
   */
  lemma DefaultConfigExample(host: Host, cwd: string, parents: seq<string>)
    requires forall p :: !host.fileExists(p) && host.readText(p).None? && host.load(p).None?
    ensures GetConfig(host, [], map[], cwd, parents)
            == Config(AllEnvironments, cwd, host.join(cwd, KeysFileName), [], [], [], [])
  {
    assert Tokenize([]) == Cli([], []);
    var chain := [cwd] + parents;
    forall m | 0 <= m < |Markers|
      ensures FindUp(host, Markers[m], chain) == ""
    {
    }
  }
}

=== FILE: file_list.dfy ===
/**
 * `getFileList`: expands the per-environment file map into (decrypted,
 * encrypted) path pairs and keeps those that have a key, belong to the
 * selected environment, exist on one side at least, and match a positional
 * filter when any is given. An empty result is an error.
 */
module FileList {
  import opened Wrappers
  import opened JsObject
  import opened Text
  import opened Platform
  import opened Config

  const EncryptedSuffix := ".enc"

  datatype FilePath = FilePath(full: string, rel: string)
  datatype FileEntry = FileEntry(decrypted: FilePath, encrypted: FilePath, key: string)
  datatype FileListError = NoFilesToProcess

  /** `resolveEncryptedPathFn`: the encrypted file sits beside the decrypted one with `.enc` appended. */
  function EncryptedPath(decrypted: string): (p: string)
    ensures |p| == |decrypted| + 4 && p[..|decrypted|] == decrypted && EndsWith(p, EncryptedSuffix)
  {
    decrypted + EncryptedSuffix
  }

  /** `keys[env]` as a string; a missing key reads as `""`, which is falsy. */
  function KeyOf(keys: Pairs<string>, env: string): string
  {
    match Get(keys, env)
    case None => ""
    case Some(k) => k
  }

  /** The loop's guard: the environment has a non-empty key and is the selected one, or all are selected. */
  predicate Selected(c: Config, env: string)
  {
    KeyOf(c.keys, env) != "" && (c.environment == AllEnvironments || env == c.environment)
  }

  /** The entry for one configured path of environment `env`. */
  function EntryFor(c: Config, host: Host, env: string, file: string): (e: FileEntry)
    ensures e.encrypted.full == e.decrypted.full + EncryptedSuffix
    ensures e.key == KeyOf(c.keys, env)
  {
    var decrypted := host.resolve(c.prefix, file);
    var encrypted := EncryptedPath(decrypted);
    FileEntry(
      FilePath(decrypted, host.relative(c.prefix, decrypted)),
      FilePath(encrypted, host.relative(c.prefix, encrypted)),
      KeyOf(c.keys, env))
  }

  function EntriesFor(c: Config, host: Host, env: string, paths: seq<string>): (es: seq<FileEntry>)
    ensures |es| == |paths|
    ensures forall j :: 0 <= j < |paths| ==> es[j] == EntryFor(c, host, env, paths[j])
  {
    seq(|paths|, j requires 0 <= j < |paths| => EntryFor(c, host, env, paths[j]))
  }

  /** The nested loop: every path of every selected environment, environment by environment. */
  function Expand(c: Config, host: Host, files: Pairs<seq<string>>): seq<FileEntry>
  {
    if |files| == 0 then []
    else
      (if Selected(c, files[0].0) then EntriesFor(c, host, files[0].0, files[0].1) else [])
      + Expand(c, host, files[1..])
  }

  /** `config.params.some((p) => decrypted.full.endsWith(p))`. */
  predicate MatchesParam(params: seq<string>, path: string)
  {
    exists i :: 0 <= i < |params| && EndsWith(path, params[i])
  }

  /** The filter: a key, a file on at least one side, and a matching parameter when parameters are given. */
  predicate Keep(c: Config, host: Host, e: FileEntry)
  {
    && e.key != ""
    && (host.fileExists(e.decrypted.full) || host.fileExists(e.encrypted.full))
    && (|c.params| > 0 ==> MatchesParam(c.params, e.decrypted.full))
  }

  /** `xs` is `ys` with some elements left out and the rest in their original order. */
  ghost predicate Subsequence<T>(xs: seq<T>, ys: seq<T>)
    decreases |ys|
  {
    if |xs| == 0 then true
    else if |ys| == 0 then false
    else (xs[0] == ys[0] && Subsequence(xs[1..], ys[1..])) || Subsequence(xs, ys[1..])
  }

  /** `list.filter(...)`. */
  function FilterKept(c: Config, host: Host, es: seq<FileEntry>): (r: seq<FileEntry>)
    ensures forall e :: e in r <==> e in es && Keep(c, host, e)
    ensures Subsequence(r, es)
    ensures forall e :: multiset(r)[e] == if Keep(c, host, e) then multiset(es)[e] else 0
  {
    if |es| == 0 then []
    else
      var rest := FilterKept(c, host, es[1..]);
      assert multiset(es) == multiset([es[0]]) + multiset(es[1..]) by {
        assert es == [es[0]] + es[1..];
      }
      assert forall e :: e in es <==> e == es[0] || e in es[1..];
      if Keep(c, host, es[0]) then
        assert ([es[0]] + rest)[1..] == rest;
        [es[0]] + rest
      else rest
  }

  /** `getFileList(config)`. */
  function GetFileList(c: Config, host: Host): (r: Result<seq<FileEntry>, FileListError>)
    ensures r.Failure? <==> forall e :: e in Expand(c, host, c.files) ==> !Keep(c, host, e)
    ensures r.Success? ==> |r.value| > 0 && Subsequence(r.value, Expand(c, host, c.files))
    ensures r.Success? ==> forall e :: e in r.value <==> e in Expand(c, host, c.files) && Keep(c, host, e)
    ensures r.Success? ==> forall e :: multiset(r.value)[e] == if Keep(c, host, e) then multiset(Expand(c, host, c.files))[e] else 0
  {
    var list := FilterKept(c, host, Expand(c, host, c.files));
    if |list| == 0 then Failure(NoFilesToProcess)
    else
      assert list[0] in list;
      Success(list)
  }

  /** An entry comes out of the expansion exactly when it is the entry of a path of a selected environment. */
  lemma {:induction false} ExpandMembers(c: Config, host: Host, files: Pairs<seq<string>>, e: FileEntry)
    ensures e in Expand(c, host, files) <==>
            exists i, j :: 0 <= i < |files| && 0 <= j < |files[i].1| && Selected(c, files[i].0)
                           && e == EntryFor(c, host, files[i].0, files[i].1[j])
    decreases |files|
  {
    if |files| > 0 {
      ExpandMembers(c, host, files[1..], e);
      var head := if Selected(c, files[0].0) then EntriesFor(c, host, files[0].0, files[0].1) else [];
      assert Expand(c, host, files) == head + Expand(c, host, files[1..]);
      if e in Expand(c, host, files[1..]) {
        var i, j :| 0 <= i < |files[1..]| && 0 <= j < |files[1..][i].1| && Selected(c, files[1..][i].0)
                    && e == EntryFor(c, host, files[1..][i].0, files[1..][i].1[j]);
        assert files[1..][i] == files[i + 1];
      }
      if e in head {
        var j :| 0 <= j < |head| && head[j] == e;
        assert e == EntryFor(c, host, files[0].0, files[0].1[j]);
      }
      if exists i, j :: 0 <= i < |files| && 0 <= j < |files[i].1| && Selected(c, files[i].0)
                        && e == EntryFor(c, host, files[i].0, files[i].1[j]) {
        var i, j :| 0 <= i < |files| && 0 <= j < |files[i].1| && Selected(c, files[i].0)
                    && e == EntryFor(c, host, files[i].0, files[i].1[j]);
        if i == 0 {
          assert head[j] == e;
        } else {
          assert files[1..][i - 1] == files[i];
        }
      }
    }
  }

  /**
   * What the list holds: exactly the entries of the configured paths of
   * environments that have a key and are selected, that exist on at least one
   * side and match a parameter when parameters are given; each entry's
   * encrypted path is its decrypted path plus `.enc`.
   */
  lemma FileListMembers(c: Config, host: Host, e: FileEntry)
    requires GetFileList(c, host).Success?
    ensures e in GetFileList(c, host).value <==>
            Keep(c, host, e)
            && exists i, j :: 0 <= i < |c.files| && 0 <= j < |c.files[i].1| && Selected(c, c.files[i].0)
                              && e == EntryFor(c, host, c.files[i].0, c.files[i].1[j])
    ensures e in GetFileList(c, host).value ==> e.encrypted.full == e.decrypted.full + EncryptedSuffix
  {
    ExpandMembers(c, host, c.files, e);
  }

  /** With one environment selected, every listed file is processed with that environment's key. */
  lemma SelectedEnvironmentKey(c: Config, host: Host)
    requires c.environment != AllEnvironments
    requires GetFileList(c, host).Success?
    ensures forall e :: e in GetFileList(c, host).value ==> e.key == KeyOf(c.keys, c.environment)
  {
    forall e | e in GetFileList(c, host).value
      ensures e.key == KeyOf(c.keys, c.environment)
    {
      FileListMembers(c, host, e);
    }
  }
}

=== FILE: header.dfy ===
/**
 * The encrypted file format: a 64-byte header (format version byte, 15
 * reserved bytes, 32-byte PBKDF2 salt, 16-byte CBC IV) followed by the
 * AES-256-CBC ciphertext. Key derivation and the cipher are foreign library
 * calls and appear here as uninterpreted functions.
 */
module Header {
  import opened Wrappers

  newtype byte = x: int | 0 <= x < 256

  const HeaderSize: nat := 64
  const SaltOffset: nat := 16
  const IvOffset: nat := 48
  const SaltSize: nat := 32
  const IvSize: nat := 16

  /**
   * `derive` is `pbkdf2Sync(password, salt, 100000, 32, 'sha512')`; `encrypt`
   * and `decrypt` run AES-256-CBC over a whole stream with a derived key and
   * an IV, `decrypt` yielding `None` when the padding does not check out.
   */
  datatype Cipher = Cipher(
    derive: (string, seq<byte>) -> seq<byte>,
    encrypt: (seq<byte>, seq<byte>, seq<byte>) -> seq<byte>,
    decrypt: (seq<byte>, seq<byte>, seq<byte>) -> Option<seq<byte>>)

  /** Decryption undoes encryption under the same key and IV. */
  ghost predicate Inverts(c: Cipher)
  {
    forall key, iv, plain :: c.decrypt(key, iv, c.encrypt(key, iv, plain)) == Some(plain)
  }

  datatype CryptoError =
    | InvalidIv   // `createDecipheriv` rejects an IV that is not 16 bytes long
    | BadDecrypt  // the cipher's final block fails the padding check

  function Zeros(n: nat): (z: seq<byte>)
    ensures |z| == n && forall i :: 0 <= i < n ==> z[i] == 0
  {
    seq(n, _ => 0)
  }

  /** The header `encryptFile` writes before the ciphertext. */
  function BuildHeader(salt: seq<byte>, iv: seq<byte>): (h: seq<byte>)
    requires |salt| == SaltSize && |iv| == IvSize
    ensures |h| == HeaderSize
    ensures h[0] == 0
    ensures forall i :: 0 <= i < SaltOffset ==> h[i] == 0
    ensures h[SaltOffset..IvOffset] == salt
    ensures h[IvOffset..HeaderSize] == iv
  {
    var h := Zeros(1) + Zeros(15) + salt + iv;
    assert h[SaltOffset..IvOffset] == salt;
    assert h[IvOffset..HeaderSize] == iv;
    h
  }

  /** `Buffer.subarray(start, end)`: out-of-range bounds are clamped to the length. */
  function Subarray(b: seq<byte>, start: nat, end: nat): (r: seq<byte>)
    ensures |r| <= |b|
    ensures end <= |b| && start <= end ==> r == b[start..end]
    ensures |b| <= start ==> r == []
  {
    var e := if end < |b| then end else |b|;
    var s := if start < e then start else e;
    b[s..e]
  }

  /** What `decryptFile` takes from the front of an encrypted file. */
  datatype HeaderView = HeaderView(salt: seq<byte>, iv: seq<byte>, bodyStart: nat)

  /** Read at most 64 bytes and slice salt and IV out of whatever was read. */
  function ReadHeader(data: seq<byte>): (v: HeaderView)
    ensures v.bodyStart <= |data|
    ensures |data| >= HeaderSize ==>
              v == HeaderView(data[SaltOffset..IvOffset], data[IvOffset..HeaderSize], HeaderSize)
    ensures |data| < HeaderSize ==> v.bodyStart == |data| && |v.iv| < IvSize
  {
    var header := data[..if |data| < HeaderSize then |data| else HeaderSize];
    HeaderView(Subarray(header, SaltOffset, IvOffset), Subarray(header, IvOffset, HeaderSize), |header|)
  }

  /** `encryptFile` with the salt and IV it drew at random: header, then ciphertext. */
  function EncryptFile(c: Cipher, plain: seq<byte>, key: string, salt: seq<byte>, iv: seq<byte>): (data: seq<byte>)
    requires |salt| == SaltSize && |iv| == IvSize
    ensures |data| >= HeaderSize
    ensures data[..HeaderSize] == BuildHeader(salt, iv)
    ensures ReadHeader(data) == HeaderView(salt, iv, HeaderSize)
    ensures data[HeaderSize..] == c.encrypt(c.derive(key, salt), iv, plain)
  {
    var h := BuildHeader(salt, iv);
    var data := h + c.encrypt(c.derive(key, salt), iv, plain);
    assert data[..HeaderSize] == h;
    assert data[SaltOffset..IvOffset] == h[SaltOffset..IvOffset];
    assert data[IvOffset..HeaderSize] == h[IvOffset..HeaderSize];
    data
  }

  /** `decryptFile`: the plaintext, or the error the cipher raises. */
  function DecryptFile(c: Cipher, data: seq<byte>, key: string): (r: Result<seq<byte>, CryptoError>)
    ensures |data| < HeaderSize ==> r == Failure(InvalidIv)
    ensures |data| >= HeaderSize ==>
              r == match c.decrypt(c.derive(key, data[SaltOffset..IvOffset]), data[IvOffset..HeaderSize], data[HeaderSize..])
                   case Some(plain) => Success(plain)
                   case None => Failure(BadDecrypt)
  {
    var h := ReadHeader(data);
    if |h.iv| != IvSize then Failure(InvalidIv)
    else
      match c.decrypt(c.derive(key, h.salt), h.iv, data[h.bodyStart..])
      case Some(plain) => Success(plain)
      case None => Failure(BadDecrypt)
  }

  /** Decrypting what was encrypted with the same key gives back the plaintext, whatever salt and IV were drawn. */
  lemma RoundTrip(c: Cipher, plain: seq<byte>, key: string, salt: seq<byte>, iv: seq<byte>)
    requires Inverts(c)
    requires |salt| == SaltSize && |iv| == IvSize
    ensures DecryptFile(c, EncryptFile(c, plain, key, salt, iv), key) == Success(plain)
  {
    var data := EncryptFile(c, plain, key, salt, iv);
    assert c.decrypt(c.derive(key, salt), iv, c.encrypt(c.derive(key, salt), iv, plain)) == Some(plain);
  }

  /** The header's version byte is not read back: files differing only there decrypt alike. */
  lemma VersionByteIgnored(c: Cipher, data: seq<byte>, other: byte, key: string)
    requires |data| >= HeaderSize
    ensures DecryptFile(c, data[0 := other], key) == DecryptFile(c, data, key)
  {
    var d := data[0 := other];
    assert d[SaltOffset..IvOffset] == data[SaltOffset..IvOffset];
    assert d[IvOffset..HeaderSize] == data[IvOffset..HeaderSize];
    assert d[HeaderSize..] == data[HeaderSize..];
  }
}

=== FILE: js_object.dfy ===
/**
 * Plain JavaScript objects with string keys, as the source uses them for the
 * `files` and `keys` maps and for the parsed command line: an ordered sequence
 * of (key, value) pairs. Assigning to a present key keeps its position and
 * replaces its value; assigning to a new key appends it.
 */
module JsObject {
  import opened Wrappers

  type Pairs<V> = seq<(string, V)>

  /** The keys in enumeration order (what `Object.keys` returns). */
  function KeyList<V>(o: Pairs<V>): seq<string>
  {
    seq(|o|, i requires 0 <= i < |o| => o[i].0)
  }

  /** No key occurs twice: every object built by `Assign` has this shape. */
  predicate DistinctKeys<V>(o: Pairs<V>)
  {
    forall i, j :: 0 <= i < j < |o| ==> o[i].0 != o[j].0
  }

  /** Position of the property `k`, if the object has one. */
  function IndexOf<V>(o: Pairs<V>, k: string, from: nat := 0): (r: Option<nat>)
    requires from <= |o|
    requires forall j :: 0 <= j < from ==> o[j].0 != k
    ensures r.Some? ==> r.value < |o| && o[r.value].0 == k
    ensures r.Some? ==> forall j :: 0 <= j < r.value ==> o[j].0 != k
    ensures r.None? ==> forall j :: 0 <= j < |o| ==> o[j].0 != k
    decreases |o| - from
  {
    if from == |o| then None
    else if o[from].0 == k then Some(from)
    else IndexOf(o, k, from + 1)
  }

  /** `IndexOf` finds the first position holding `k`, whichever way that position is known. */
  lemma IndexOfIs<V>(o: Pairs<V>, k: string, r: Option<nat>)
    requires r.Some? ==> r.value < |o| && o[r.value].0 == k && forall j :: 0 <= j < r.value ==> o[j].0 != k
    requires r.None? ==> forall j :: 0 <= j < |o| ==> o[j].0 != k
    ensures IndexOf(o, k) == r
  {
  }

  /** Property read `o[k]`; `None` stands for `undefined`. */
  function Get<V>(o: Pairs<V>, k: string): (r: Option<V>)
    ensures r.None? <==> k !in KeyList(o)
    ensures r.Some? ==> exists i :: 0 <= i < |o| && o[i].0 == k && o[i].1 == r.value
  {
    match IndexOf(o, k)
    case None => None
    case Some(i) =>
      assert KeyList(o)[i] == k;
      Some(o[i].1)
  }

  /** Property assignment `o[k] = v`. */
  function Assign<V>(o: Pairs<V>, k: string, v: V): (r: Pairs<V>)
    ensures Get(r, k) == Some(v)
    ensures forall k' :: k' != k ==> Get(r, k') == Get(o, k')
    ensures k in KeyList(o) ==> KeyList(r) == KeyList(o)
    ensures k !in KeyList(o) ==> r == o + [(k, v)]
    ensures DistinctKeys(o) ==> DistinctKeys(r)
  {
    match IndexOf(o, k)
    case Some(i) =>
      ReplaceFound(o, k, v, i);
      o[i := (k, v)]
    case None =>
      AppendMissing(o, k, v);
      o + [(k, v)]
  }

  /** Overwriting the pair where `k` is found keeps every name's position. */
  lemma ReplaceFound<V>(o: Pairs<V>, k: string, v: V, i: nat)
    requires IndexOf(o, k) == Some(i)
    ensures i < |o|
    ensures IndexOf(o[i := (k, v)], k) == Some(i)
    ensures forall k' :: k' != k ==> IndexOf(o[i := (k, v)], k') == IndexOf(o, k')
    ensures KeyList(o[i := (k, v)]) == KeyList(o)
  {
    var r := o[i := (k, v)];
    IndexOfIs(r, k, Some(i));
    forall k' | k' != k
      ensures IndexOf(r, k') == IndexOf(o, k')
    {
      IndexOfIs(r, k', IndexOf(o, k'));
    }
    assert KeyList(r) == KeyList(o);
  }

  /** Appending a missing name puts it last and moves no other name. */
  lemma AppendMissing<V>(o: Pairs<V>, k: string, v: V)
    requires IndexOf(o, k).None?
    ensures IndexOf(o + [(k, v)], k) == Some(|o|)
    ensures forall k' :: k' != k ==> IndexOf(o + [(k, v)], k') == IndexOf(o, k')
    ensures k !in KeyList(o)
  {
    var r := o + [(k, v)];
    assert forall j :: 0 <= j < |o| ==> KeyList(o)[j] != k;
    IndexOfIs(r, k, Some(|o|));
    forall k' | k' != k
      ensures IndexOf(r, k') == IndexOf(o, k')
    {
      IndexOfIs(r, k', IndexOf(o, k'));
    }
  }

  /**
   * Reference meaning of a run of assignments: the value of the LAST entry
   * with key `k`, or `None` when no entry has that key.
   */
  function Last<V>(es: Pairs<V>, k: string): Option<V>
  {
    if |es| == 0 then None
    else if es[|es| - 1].0 == k then Some(es[|es| - 1].1)
    else Last(es[..|es| - 1], k)
  }

  /** Assign every entry of `es` to `o`, first to last (a loop of assignments, or `{...o, ...es}`). */
  function AssignAll<V>(o: Pairs<V>, es: Pairs<V>): (r: Pairs<V>)
    ensures forall k :: Get(r, k) == (if Last(es, k).Some? then Last(es, k) else Get(o, k))
    ensures DistinctKeys(o) ==> DistinctKeys(r)
    decreases |es|
  {
    if |es| == 0 then o
    else
      var n := |es| - 1;
      Assign(AssignAll(o, es[..n]), es[n].0, es[n].1)
  }

  /** The names of `names` that are not in `known`, each once, in the order they first occur. */
  function NewNames(known: seq<string>, names: seq<string>): seq<string>
    decreases |names|
  {
    if |names| == 0 then []
    else
      var n := |names| - 1;
      var prev := NewNames(known, names[..n]);
      if names[n] in known || names[n] in prev then prev else prev + [names[n]]
  }

  /** Assigning appends the name when it is new and keeps the names otherwise. */
  lemma AssignKeyList<V>(o: Pairs<V>, k: string, v: V)
    ensures KeyList(Assign(o, k, v)) == if k in KeyList(o) then KeyList(o) else KeyList(o) + [k]
  {
    if k !in KeyList(o) {
      assert KeyList(o + [(k, v)]) == KeyList(o) + [k];
    }
  }

  /** Spreading entries keeps the object's names in place and appends each new name where it first occurs. */
  lemma {:induction false} AssignAllOrder<V>(o: Pairs<V>, es: Pairs<V>)
    ensures KeyList(AssignAll(o, es)) == KeyList(o) + NewNames(KeyList(o), KeyList(es))
    decreases |es|
  {
    if |es| > 0 {
      var n := |es| - 1;
      var before := AssignAll(o, es[..n]);
      AssignAllOrder(o, es[..n]);
      KeyListPrefix(es, n);
      AssignNewName(KeyList(o), KeyList(es), before, es[n].1);
    }
  }

  /** One assignment of the next name extends the names seen so far as `NewNames` does. */
  lemma AssignNewName<V>(known: seq<string>, names: seq<string>, before: Pairs<V>, v: V)
    requires |names| > 0
    requires KeyList(before) == known + NewNames(known, names[..|names| - 1])
    ensures KeyList(Assign(before, names[|names| - 1], v)) == known + NewNames(known, names)
  {
    var n, k := |names| - 1, names[|names| - 1];
    var prev := NewNames(known, names[..n]);
    AssignKeyList(before, k, v);
    if k !in known + prev {
      assert known + prev + [k] == known + (prev + [k]);
    }
  }

  /** The names of a prefix are the prefix of the names. */
  lemma KeyListPrefix<V>(es: Pairs<V>, n: nat)
    requires n < |es|
    ensures KeyList(es)[..n] == KeyList(es[..n])
    ensures KeyList(es)[n] == es[n].0
  {
  }

  /** One more entry is one more assignment. */
  lemma AssignAllSnoc<V>(o: Pairs<V>, es: Pairs<V>, k: string, v: V)
    ensures AssignAll(o, es + [(k, v)]) == Assign(AssignAll(o, es), k, v)
  {
    assert (es + [(k, v)])[..|es|] == es;
  }

  /** Assigning entries with distinct keys to an empty object rebuilds them in order. */
  lemma {:induction false} AssignAllDistinct<V>(es: Pairs<V>)
    requires DistinctKeys(es)
    ensures AssignAll([], es) == es
    decreases |es|
  {
    if |es| > 0 {
      var n := |es| - 1;
      var init := es[..n];
      var k := es[n].0;
      assert DistinctKeys(init);
      AssignAllDistinct(init);
      assert k !in KeyList(init) by {
        forall j | 0 <= j < n
          ensures KeyList(init)[j] != k
        {
          assert KeyList(init)[j] == es[j].0;
        }
      }
      assert AssignAll([], es) == Assign(init, k, es[n].1);
      assert init + [(k, es[n].1)] == es;
    }
  }

  /** With distinct keys there is no later duplicate, so the last entry for a key is the only one. */
  lemma LastIsGet<V>(es: Pairs<V>, k: string)
    requires DistinctKeys(es)
    ensures Last(es, k) == Get(es, k)
  {
    AssignAllDistinct(es);
  }

  /** Reading a property of a non-empty object looks at the first pair, then at the rest. */
  lemma GetCons<V>(o: Pairs<V>, k: string)
    requires |o| > 0
    ensures Get(o, k) == if o[0].0 == k then Some(o[0].1) else Get(o[1..], k)
  {
    var rest := IndexOf(o[1..], k);
    if o[0].0 == k {
      IndexOfIs(o, k, Some(0));
    } else if rest.Some? {
      IndexOfIs(o, k, Some(rest.value + 1));
    } else {
      IndexOfIs(o, k, None);
    }
  }

  /** The object without the properties named in `names`. */
  function Without<V>(o: Pairs<V>, names: set<string>): (r: Pairs<V>)
    ensures forall k :: Get(r, k) == (if k in names then None else Get(o, k))
    ensures DistinctKeys(o) ==> DistinctKeys(r)
  {
    if |o| == 0 then []
    else
      var rest := Without(o[1..], names);
      var r := if o[0].0 in names then rest else [o[0]] + rest;
      assert forall k :: Get(r, k) == (if k in names then None else Get(o, k)) by {
        forall k
          ensures Get(r, k) == (if k in names then None else Get(o, k))
        {
          GetCons(o, k);
          if o[0].0 !in names {
            GetCons(r, k);
            assert r[1..] == rest;
          }
        }
      }
      assert DistinctKeys(o) ==> DistinctKeys(r) by {
        if DistinctKeys(o) && o[0].0 !in names {
          assert DistinctKeys(o[1..]);
          assert Get(o[1..], o[0].0).None? by {
            assert forall j :: 0 <= j < |o[1..]| ==> KeyList(o[1..])[j] != o[0].0;
          }
          assert Get(rest, o[0].0).None?;
          assert forall j :: 0 <= j < |rest| ==> rest[j].0 != o[0].0 by {
            forall j | 0 <= j < |rest|
              ensures rest[j].0 != o[0].0
            {
              assert KeyList(rest)[j] == rest[j].0;
            }
          }
        }
      }
      r
  }
}

=== FILE: key_file.dfy ===
/**
 * The key file: one `environment: secret` line per environment. Reading keeps
 * only lines that start with a word character, splits each on `:`, trims the
 * pieces, and takes the first piece as the name and the rest, rejoined with
 * `:`, as the secret. Writing emits `name: secret` lines joined by newlines,
 * with a final newline.
 */
module KeyFile {
  import opened Wrappers
  import opened JsObject
  import opened Text
  import opened Platform

  /** Only lines whose first character is a word character carry an entry. */
  predicate KeepsLine(line: string)
  {
    |line| > 0 && IsWordChar(line[0])
  }

  function TrimAll(pieces: seq<string>): (r: seq<string>)
    ensures |r| == |pieces|
    ensures forall i :: 0 <= i < |r| ==> r[i] == Trim(pieces[i])
  {
    seq(|pieces|, i requires 0 <= i < |pieces| => Trim(pieces[i]))
  }

  lemma TrimAllTail(raw: seq<string>)
    requires |raw| > 0
    ensures TrimAll(raw)[1..] == TrimAll(raw[1..])
  {
  }

  /** The (name, secret) entry of one kept line. */
  function ParseLine(line: string): (string, string)
  {
    var pieces := TrimAll(Split(line, ':'));
    (pieces[0], Join(pieces[1..], ':'))
  }

  /** The entries of the kept lines, in file order, duplicates included. */
  function Entries(lines: seq<string>): Pairs<string>
  {
    if |lines| == 0 then []
    else
      var n := |lines| - 1;
      Entries(lines[..n]) + (if KeepsLine(lines[n]) then [ParseLine(lines[n])] else [])
  }

  /** A name the parser can return and the writer can emit unchanged. */
  predicate ValidName(k: string)
  {
    |k| > 0 && IsWordChar(k[0]) && ':' !in k && '\n' !in k && Trimmed(k)
  }

  /** A secret that survives a write and a read: no newline, no whitespace at its ends or beside a `:`. */
  predicate ValidSecret(v: string)
  {
    var pieces := Split(v, ':');
    '\n' !in v && forall i :: 0 <= i < |pieces| ==> Trimmed(pieces[i])
  }

  /** The name read from a kept line is a valid name. */
  lemma ParseLineName(line: string)
    requires KeepsLine(line) && '\n' !in line
    ensures ValidName(ParseLine(line).0)
  {
    var raw := Split(line, ':');
    assert line == [line[0]] + line[1..];
    SplitConsChar(line[0], line[1..], ':');
    assert raw[0][0] == line[0];
    TrimKeepsFirst(raw[0]);
    SplitLacks(line, ':', '\n');
    assert '\n' !in raw[0];
  }

  /** The secret read from a line without a newline is a valid secret. */
  lemma ParseLineSecret(line: string)
    requires '\n' !in line
    ensures ValidSecret(ParseLine(line).1)
  {
    var raw := Split(line, ':');
    SplitLacks(line, ':', '\n');
    var rest := TrimAll(raw)[1..];
    TrimAllTail(raw);
    forall i | 0 <= i < |rest|
      ensures Trimmed(rest[i]) && ':' !in rest[i] && '\n' !in rest[i]
    {
      assert rest[i] == Trim(raw[i + 1]);
    }
    JoinedPiecesSecret(rest);
  }

  /** Trimmed pieces without `:` or newline, joined with `:`, form a valid secret. */
  lemma JoinedPiecesSecret(pieces: seq<string>)
    requires forall i :: 0 <= i < |pieces| ==> Trimmed(pieces[i]) && ':' !in pieces[i] && '\n' !in pieces[i]
    ensures ValidSecret(Join(pieces, ':'))
  {
    JoinLacks(pieces, ':', '\n');
    if |pieces| > 0 {
      SplitJoin(pieces, ':');
    } else {
      assert Split("", ':') == [""];
    }
  }

  /** The name is the trimmed text before the first `:`; the secret is the trimmed `:`-pieces after it, rejoined with `:`. */
  lemma ParseLineAtFirstColon(line: string)
    requires ':' in line
    ensures ParseLine(line).0 == Trim(line[..FirstIndex(line, ':')])
    ensures ParseLine(line).1 == Join(TrimAll(Split(line[FirstIndex(line, ':') + 1..], ':')), ':')
  {
    var i := FirstIndex(line, ':');
    var rest := Split(line[i + 1..], ':');
    assert Split(line, ':') == [line[..i]] + rest;
    TrimAllCons(line[..i], rest);
  }

  /** A line without `:` is all name, with an empty secret. */
  lemma ParseLineWithoutColon(line: string)
    requires ':' !in line
    ensures ParseLine(line) == (Trim(line), "")
  {
    assert Split(line, ':') == [line];
    TrimAllCons(line, []);
  }

  /** Every entry of a line without a newline has a valid name and secret. */
  lemma ParseLineValid(line: string)
    requires KeepsLine(line) && '\n' !in line
    ensures ValidName(ParseLine(line).0) && ValidSecret(ParseLine(line).1)
  {
    ParseLineName(line);
    ParseLineSecret(line);
  }

  /** `readKeyFile` on the text of a readable file. */
  function Parse(text: string): (r: Pairs<string>)
    ensures DistinctKeys(r)
    ensures forall k :: Get(r, k) == Last(Entries(Split(text, '\n')), k)
    ensures forall i :: 0 <= i < |r| ==> ValidName(r[i].0) && ValidSecret(r[i].1)
    ensures KeyList(r) == NewNames([], KeyList(Entries(Split(text, '\n'))))
  {
    var es := Entries(Split(text, '\n'));
    ParsedEntriesValid(text);
    AssignAllOrder([], es);
    AssignAll([], es)
  }

  /** What `Parse` keeps is valid: every entry it returns is the last entry of its name in the file. */
  lemma ParsedEntriesValid(text: string)
    ensures forall i :: 0 <= i < |AssignAll([], Entries(Split(text, '\n')))| ==>
              ValidName(AssignAll([], Entries(Split(text, '\n')))[i].0)
              && ValidSecret(AssignAll([], Entries(Split(text, '\n')))[i].1)
  {
    var lines := Split(text, '\n');
    var es := Entries(lines);
    var r := AssignAll([], es);
    EntriesValid(lines);
    forall i | 0 <= i < |r|
      ensures ValidName(r[i].0) && ValidSecret(r[i].1)
    {
      var k := r[i].0;
      assert Get(r, k) == Some(r[i].1);
      LastFrom(es, k);
    }
  }

  /** Every entry of the lines of a split text is valid. */
  lemma {:induction false} EntriesValid(lines: seq<string>)
    requires forall i :: 0 <= i < |lines| ==> '\n' !in lines[i]
    ensures forall j :: 0 <= j < |Entries(lines)| ==> ValidName(Entries(lines)[j].0) && ValidSecret(Entries(lines)[j].1)
    decreases |lines|
  {
    if |lines| > 0 {
      var n := |lines| - 1;
      var front, last := lines[..n], lines[n];
      assert forall i :: 0 <= i < |front| ==> front[i] == lines[i];
      EntriesValid(front);
      assert front + [last] == lines;
      EntriesSnoc(front, last);
      if KeepsLine(last) {
        ParseLineValid(last);
      }
    }
  }

  /** The last entry for a key is one of the entries. */
  lemma {:induction false} LastFrom(es: Pairs<string>, k: string)
    requires Last(es, k).Some?
    ensures exists j :: 0 <= j < |es| && es[j] == (k, Last(es, k).value)
    decreases |es|
  {
    var n := |es| - 1;
    if es[n].0 != k {
      LastFrom(es[..n], k);
      var j :| 0 <= j < n && es[..n][j] == (k, Last(es[..n], k).value);
      assert es[j] == es[..n][j];
    }
  }

  /** `readKeyFile`: absent when the file cannot be read, otherwise its entries, even when there are none. */
  function ReadKeyFile(host: Host, path: string): (r: Option<Pairs<string>>)
    ensures r.None? <==> host.readText(path).None?
    ensures r.Some? ==> DistinctKeys(r.value) && forall k :: Get(r.value, k) == Last(Entries(Split(host.readText(path).value, '\n')), k)
  {
    match host.readText(path)
    case None => None
    case Some(text) => Some(Parse(text))
  }

  /** The line `writeKeyFile` emits for one entry. */
  function Line(entry: (string, string)): string
  {
    entry.0 + ": " + entry.1
  }

  function Lines(keys: Pairs<string>): (r: seq<string>)
    ensures |r| == |keys|
    ensures forall i :: 0 <= i < |r| ==> r[i] == Line(keys[i])
  {
    seq(|keys|, i requires 0 <= i < |keys| => Line(keys[i]))
  }

  /** `writeKeyFile`: the text written for `keys`. */
  function Serialize(keys: Pairs<string>): (text: string)
    ensures |text| > 0 && text[|text| - 1] == '\n'
  {
    Join(Lines(keys), '\n') + "\n"
  }

  /** Written text splits into one line per entry and the empty text after the final newline. */
  lemma SplitSerialize(keys: Pairs<string>)
    requires forall i :: 0 <= i < |keys| ==> '\n' !in keys[i].0 && '\n' !in keys[i].1
    ensures Split(Serialize(keys), '\n') == if |keys| == 0 then ["", ""] else Lines(keys) + [""]
  {
    var lines := Lines(keys);
    if |lines| == 0 {
      assert Serialize(keys) == "\n";
      assert Split("\n", '\n') == [""] + Split("", '\n');
    } else {
      forall i | 0 <= i < |lines|
        ensures '\n' !in lines[i]
      {
        assert lines[i] == keys[i].0 + (": " + keys[i].1);
      }
      SplitTerminated(lines, '\n');
      assert Serialize(keys) == Join(lines, '\n') + ['\n'];
    }
  }

  /** Trimming pieces that are already trimmed changes nothing. */
  lemma TrimAllTrimmed(pieces: seq<string>)
    requires forall i :: 0 <= i < |pieces| ==> Trimmed(pieces[i])
    ensures TrimAll(pieces) == pieces
  {
  }

  /** The pieces of a secret written after `": "` trim back to the secret's own pieces. */
  lemma SecretPiecesReadBack(v: string)
    requires ValidSecret(v)
    ensures TrimAll(Split([' '] + v, ':')) == Split(v, ':')
  {
    var s := Split(v, ':');
    SplitConsChar(' ', v, ':');
    TrimAllPadded(s[0], s[1..]);
    assert [s[0]] + s[1..] == s;
  }

  /** Trimming trimmed pieces, the first with a space in front, gives back the pieces. */
  lemma TrimAllPadded(first: string, rest: seq<string>)
    requires Trimmed(first)
    requires forall i :: 0 <= i < |rest| ==> Trimmed(rest[i])
    ensures TrimAll([[' '] + first] + rest) == [first] + rest
  {
    TrimAllCons([' '] + first, rest);
    TrimSkipsLeadingSpace(' ', first);
    TrimAllTrimmed(rest);
  }

  lemma TrimAllCons(p: string, ps: seq<string>)
    ensures TrimAll([p] + ps) == [Trim(p)] + TrimAll(ps)
  {
    var l := TrimAll([p] + ps);
    var r := [Trim(p)] + TrimAll(ps);
    assert |l| == |r|;
    forall i | 0 <= i < |l|
      ensures l[i] == r[i]
    {
      if i > 0 {
        assert ([p] + ps)[i] == ps[i - 1];
      }
    }
  }

  /** One written line reads back as the entry it was written from. */
  lemma ParseLineOfLine(k: string, v: string)
    requires ValidName(k) && ValidSecret(v)
    ensures KeepsLine(Line((k, v)))
    ensures ParseLine(Line((k, v))) == (k, v)
  {
    var line := Line((k, v));
    assert line == k + [':'] + ([' '] + v);
    SplitConsPiece(k, [' '] + v, ':');
    var raw := Split(line, ':');
    var pieces := TrimAll(raw);
    assert pieces[0] == k;
    TrimAllTail(raw);
    SecretPiecesReadBack(v);
    assert pieces[1..] == Split(v, ':');
  }

  lemma EntriesSnoc(lines: seq<string>, line: string)
    ensures Entries(lines + [line]) == Entries(lines) + (if KeepsLine(line) then [ParseLine(line)] else [])
  {
    assert (lines + [line])[..|lines|] == lines;
  }

  lemma LinesSnoc(keys: Pairs<string>, entry: (string, string))
    ensures Lines(keys + [entry]) == Lines(keys) + [Line(entry)]
  {
  }

  /** The entries read from written lines are the entries written. */
  lemma {:induction false} EntriesOfLines(keys: Pairs<string>)
    requires forall i :: 0 <= i < |keys| ==> ValidName(keys[i].0) && ValidSecret(keys[i].1)
    ensures Entries(Lines(keys)) == keys
    decreases |keys|
  {
    if |keys| > 0 {
      var n := |keys| - 1;
      var front, last := keys[..n], keys[n];
      assert keys == front + [last];
      assert ValidName(last.0) && ValidSecret(last.1);
      assert forall i :: 0 <= i < |front| ==> ValidName(front[i].0) && ValidSecret(front[i].1) by {
        assert forall i :: 0 <= i < |front| ==> front[i] == keys[i];
      }
      EntriesOfLines(front);
      ParseLineOfLine(last.0, last.1);
      LinesSnoc(front, last);
      EntriesSnoc(Lines(front), Line(last));
    }
  }

  /** The entries read from a written key file are the entries written. */
  lemma EntriesOfSerialized(keys: Pairs<string>)
    requires forall i :: 0 <= i < |keys| ==> ValidName(keys[i].0) && ValidSecret(keys[i].1)
    ensures Entries(Split(Serialize(keys), '\n')) == keys
  {
    assert forall i :: 0 <= i < |keys| ==> '\n' !in keys[i].0 && '\n' !in keys[i].1;
    SplitSerialize(keys);
    if |keys| == 0 {
      EntriesSnoc([], "");
      EntriesSnoc([""], "");
      assert [""] + [""] == ["", ""];
    } else {
      EntriesSnoc(Lines(keys), "");
      EntriesOfLines(keys);
    }
  }

  /** Reading back what `writeKeyFile` wrote gives the same keys, in the same order. */
  lemma RoundTrip(keys: Pairs<string>)
    requires DistinctKeys(keys)
    requires forall i :: 0 <= i < |keys| ==> ValidName(keys[i].0) && ValidSecret(keys[i].1)
    ensures Parse(Serialize(keys)) == keys
  {
    EntriesOfSerialized(keys);
    AssignAllDistinct(keys);
  }

  /** What was read, written again and read again, is what was read: reading normalises. */
  lemma ParseIsStable(text: string)
    ensures Parse(Serialize(Parse(text))) == Parse(text)
  {
    RoundTrip(Parse(text));
  }

  /** The two-entry example written in the project's own unit test. */
  lemma SerializeExample()
    ensures Serialize([("env1", "test1"), ("env2", "test2")]) == "env1: test1\nenv2: test2\n"
  {
  }
}

=== FILE: locator.dfy ===
/**
 * `findUp`: look for a marker file in a directory and then in each of its
 * ancestors, up to and including the file-system root. The ancestor chain
 * (what repeated `path.parse(dir).dir` yields) is an explicit input, so the
 * walk is finite and ends at the root by construction.
 */
module Locator {
  import opened Wrappers
  import opened Platform

  /** `dir` contains a file called `name`. */
  predicate Holds(host: Host, dir: string, name: string)
  {
    host.fileExists(host.join(dir, name))
  }

  /** Index, in `chain`, of the first directory that contains `name`. */
  function FindUpIndex(host: Host, name: string, chain: seq<string>): (r: Option<nat>)
    ensures r.Some? ==> r.value < |chain| && Holds(host, chain[r.value], name)
    ensures r.Some? ==> forall j :: 0 <= j < r.value ==> !Holds(host, chain[j], name)
    ensures r.None? <==> forall j :: 0 <= j < |chain| ==> !Holds(host, chain[j], name)
  {
    if |chain| == 0 then None
    else if Holds(host, chain[0], name) then Some(0)
    else
      match FindUpIndex(host, name, chain[1..])
      case None => None
      case Some(i) => Some(i + 1)
  }

  /**
   * `findUp(name, cwd)` over `chain` = `cwd, parent, …, root`: the first
   * directory of the chain that contains `name`, or `''` when none does.
   */
  function FindUp(host: Host, name: string, chain: seq<string>): (r: string)
    ensures (forall j :: 0 <= j < |chain| ==> !Holds(host, chain[j], name)) ==> r == ""
    ensures forall i :: (0 <= i < |chain| && Holds(host, chain[i], name)
                         && forall j :: 0 <= j < i ==> !Holds(host, chain[j], name)) ==> r == chain[i]
  {
    match FindUpIndex(host, name, chain)
    case None => ""
    case Some(i) => chain[i]
  }
}

=== FILE: platform.dfy ===
/**
 * The outside world the core reads: the file system, Node's module loader,
 * the `path` module and the process environment, all passed in explicitly.
 */
module Platform {
  import opened Wrappers
  import opened JsObject

  /** What one configuration source contributes to the resolved configuration. */
  datatype FileConfig = FileConfig(
    files: Option<Pairs<seq<string>>>,  // environment name -> decrypted paths, relative to the prefix
    keyFile: Option<string>,            // key file name, relative to the prefix
    keys: Option<Pairs<string>>,        // keys embedded in the configuration
    settings: Pairs<string>)            // every other setting, kept as given

  const EmptyFileConfig := FileConfig(None, None, None, [])

  /** A module loaded with `require`: its export read as a configuration, and its `secrypt` property. */
  datatype Module = Module(asConfig: FileConfig, secrypt: Option<FileConfig>)

  /**
   * `fileExists` is `fs.existsSync`; `readText` is reading a UTF-8 file (`None`
   * when the read throws); `load` is `require` (`None` when it throws
   * or the export is falsy, since the `||` chain then moves on);
   * `join`, `resolve` and `relative` are the `path` functions of that name.
   */
  datatype Host = Host(
    fileExists: string -> bool,
    readText: string -> Option<string>,
    load: string -> Option<Module>,
    join: (string, string) -> string,
    resolve: (string, string) -> string,
    relative: (string, string) -> string)

  /** `process.env`. */
  type Env = map<string, string>

  /** `env[name]` as a string: an unset variable reads as the empty string, which is falsy like `undefined`. */
  function EnvValue(env: Env, name: string): string
  {
    if name in env then env[name] else ""
  }
}

=== FILE: text.dfy ===
/**
 * The JavaScript string operations the source relies on: `trim`, `split`
 * and `join` on a one-character separator, `startsWith`, `endsWith`, and the
 * `\w` character class of a non-Unicode regular expression.
 */
module Text {

  /** `\w`: ASCII letters, digits and underscore. */
  predicate IsWordChar(c: char)
  {
    ('a' <= c <= 'z') || ('A' <= c <= 'Z') || ('0' <= c <= '9') || c == '_'
  }

  /** The characters `String.prototype.trim` removes: ECMAScript WhiteSpace and LineTerminator. */
  predicate IsWhitespace(c: char)
  {
    || c == '\t' || c == '\n' || c == '\U{000B}' || c == '\U{000C}' || c == '\r' || c == ' '
    || c == '\U{00A0}' || c == '\U{1680}' || ('\U{2000}' <= c <= '\U{200A}')
    || c == '\U{2028}' || c == '\U{2029}' || c == '\U{202F}' || c == '\U{205F}'
    || c == '\U{3000}' || c == '\U{FEFF}'
  }

  /** Neither end of `s` is whitespace. */
  predicate Trimmed(s: string)
  {
    |s| == 0 || (!IsWhitespace(s[0]) && !IsWhitespace(s[|s| - 1]))
  }

  /** `s` with its leading whitespace removed. */
  function TrimStart(s: string): (r: string)
    ensures |r| <= |s| && r == s[|s| - |r|..]
    ensures forall i :: 0 <= i < |s| - |r| ==> IsWhitespace(s[i])
    ensures |r| > 0 ==> !IsWhitespace(r[0])
  {
    if |s| > 0 && IsWhitespace(s[0]) then TrimStart(s[1..]) else s
  }

  /** `s` with its trailing whitespace removed. */
  function TrimEnd(s: string): (r: string)
    ensures |r| <= |s| && r == s[..|r|]
    ensures forall i :: |r| <= i < |s| ==> IsWhitespace(s[i])
    ensures |r| > 0 ==> !IsWhitespace(r[|r| - 1])
  {
    if |s| > 0 && IsWhitespace(s[|s| - 1]) then TrimEnd(s[..|s| - 1]) else s
  }

  /** `r` is `s` from index `a` on, with only whitespace before `a` and after `r`. */
  predicate CutFrom(s: string, r: string, a: int)
  {
    && 0 <= a <= a + |r| <= |s| && r == s[a..a + |r|]
    && (forall i :: 0 <= i < a ==> IsWhitespace(s[i]))
    && (forall i :: a + |r| <= i < |s| ==> IsWhitespace(s[i]))
  }

  /** `s.trim()`. */
  function Trim(s: string): (r: string)
    ensures Trimmed(r)
    ensures |r| <= |s|
    ensures Trimmed(s) ==> r == s
    ensures forall c :: c in r ==> c in s
  {
    var t := TrimStart(s);
    var r := TrimEnd(t);
    assert |r| > 0 ==> r[0] == t[0];
    r
  }

  /** Trimming cuts only whitespace, and only at the two ends: the result is a slice of `s` with whitespace around it. */
  lemma TrimCutsEnds(s: string)
    ensures exists a :: CutFrom(s, Trim(s), a)
  {
    var t := TrimStart(s);
    var a := |s| - |t|;
    assert Trim(s) == TrimEnd(t);
    assert Trim(s) == s[a..a + |Trim(s)|];
    assert CutFrom(s, Trim(s), a);
  }

  /** Leading whitespace does not change the trimmed text. */
  lemma TrimSkipsLeadingSpace(c: char, s: string)
    requires IsWhitespace(c)
    ensures Trim([c] + s) == Trim(s)
  {
    assert ([c] + s)[1..] == s;
  }

  /** The trimmed text of a string that starts with a non-whitespace character starts with it too. */
  lemma TrimKeepsFirst(s: string)
    requires |s| > 0 && !IsWhitespace(s[0])
    ensures |Trim(s)| > 0 && Trim(s)[0] == s[0]
  {
    assert TrimStart(s) == s;
  }

  predicate StartsWith(s: string, prefix: string)
  {
    |prefix| <= |s| && s[..|prefix|] == prefix
  }

  predicate EndsWith(s: string, suffix: string)
  {
    |suffix| <= |s| && s[|s| - |suffix|..] == suffix
  }

  /** Position of the first `d` in `s`. */
  function FirstIndex(s: string, d: char): (i: nat)
    requires d in s
    ensures i < |s| && s[i] == d && d !in s[..i]
  {
    if s[0] == d then 0
    else
      assert d in s[1..] by { assert s == [s[0]] + s[1..]; }
      var j := FirstIndex(s[1..], d);
      assert s[..j + 1] == [s[0]] + s[1..][..j];
      j + 1
  }

  /** `pieces.join(d)`: the empty list joins to the empty string. */
  function Join(pieces: seq<string>, d: char): string
  {
    if |pieces| == 0 then ""
    else if |pieces| == 1 then pieces[0]
    else pieces[0] + [d] + Join(pieces[1..], d)
  }

  /** `s.split(d)`: always at least one piece, none of which contains `d`. */
  function Split(s: string, d: char): (pieces: seq<string>)
    ensures |pieces| >= 1
    ensures forall i :: 0 <= i < |pieces| ==> d !in pieces[i]
    ensures Join(pieces, d) == s
    decreases |s|
  {
    if d !in s then [s]
    else
      var i := FirstIndex(s, d);
      var rest := Split(s[i + 1..], d);
      assert s == s[..i] + [d] + s[i + 1..];
      [s[..i]] + rest
  }

  /** Splitting introduces no character the text lacks. */
  lemma {:induction false} SplitLacks(s: string, d: char, c: char)
    requires c !in s
    ensures forall i :: 0 <= i < |Split(s, d)| ==> c !in Split(s, d)[i]
    decreases |s|
  {
    if d in s {
      var i := FirstIndex(s, d);
      var tail := s[i + 1..];
      assert forall j :: 0 <= j < |s[..i]| ==> s[..i][j] == s[j];
      assert forall j :: 0 <= j < |tail| ==> tail[j] in s;
      SplitLacks(tail, d, c);
    }
  }

  /** Splitting undoes joining when no piece contains the separator. */
  lemma {:induction false} SplitJoin(pieces: seq<string>, d: char)
    requires |pieces| >= 1
    requires forall i :: 0 <= i < |pieces| ==> d !in pieces[i]
    ensures Split(Join(pieces, d), d) == pieces
    decreases |pieces|
  {
    if |pieces| > 1 {
      var p := pieces[0];
      var tail := Join(pieces[1..], d);
      var s := p + [d] + tail;
      assert s[|p|] == d;
      var i := FirstIndex(s, d);
      assert s[..|p|] == p;
      assert i == |p| by {
        assert i <= |p| by { assert d in s[..|p| + 1]; }
        assert i >= |p| by { assert forall j :: 0 <= j < |p| ==> s[j] == p[j]; }
      }
      assert s[i + 1..] == tail;
      SplitJoin(pieces[1..], d);
      assert pieces == [p] + pieces[1..];
    }
  }

  /** A character in none of the pieces, other than the separator, is not in their join. */
  lemma {:induction false} JoinLacks(pieces: seq<string>, d: char, c: char)
    requires c != d
    requires forall i :: 0 <= i < |pieces| ==> c !in pieces[i]
    ensures c !in Join(pieces, d)
    decreases |pieces|
  {
    if |pieces| > 1 {
      JoinLacks(pieces[1..], d, c);
    }
  }

  /** Joining one more piece adds the separator and the piece. */
  lemma {:induction false} JoinAppend(pieces: seq<string>, p: string, d: char)
    requires |pieces| >= 1
    ensures Join(pieces + [p], d) == Join(pieces, d) + [d] + p
    decreases |pieces|
  {
    if |pieces| > 1 {
      assert (pieces + [p])[1..] == pieces[1..] + [p];
      JoinAppend(pieces[1..], p, d);
    } else {
      assert (pieces + [p])[1..] == [p];
    }
  }

  /** Text ending in the separator splits into its lines and one empty piece after the last separator. */
  lemma SplitTerminated(lines: seq<string>, d: char)
    requires |lines| >= 1
    requires forall i :: 0 <= i < |lines| ==> d !in lines[i]
    ensures Split(Join(lines, d) + [d], d) == lines + [""]
  {
    JoinAppend(lines, "", d);
    assert Join(lines + [""], d) == Join(lines, d) + [d];
    SplitJoinOfAppended(lines, d);
  }

  lemma SplitJoinOfAppended(lines: seq<string>, d: char)
    requires |lines| >= 1
    requires forall i :: 0 <= i < |lines| ==> d !in lines[i]
    ensures Split(Join(lines + [""], d), d) == lines + [""]
  {
    assert forall i :: 0 <= i < |lines + [""]| ==> d !in (lines + [""])[i];
    SplitJoin(lines + [""], d);
  }

  /** A character other than the separator at the front joins the first piece. */
  lemma SplitConsChar(c: char, s: string, d: char)
    requires c != d
    ensures Split([c] + s, d) == [[c] + Split(s, d)[0]] + Split(s, d)[1..]
  {
    var t := [c] + s;
    assert t[1..] == s;
    if d in s {
      assert d in t;
      var i := FirstIndex(s, d);
      var j := FirstIndex(t, d);
      assert j == i + 1 by {
        assert t[i + 1] == d;
        assert j <= i + 1 by { assert d in t[..i + 2]; }
        assert j >= i + 1 by { assert forall m :: 0 < m <= i ==> t[m] == s[m - 1]; }
      }
      assert t[..j] == [c] + s[..i];
      assert t[j + 1..] == s[i + 1..];
    } else {
      assert d !in t;
    }
  }

  /** A separator-free first piece splits off by itself. */
  lemma SplitConsPiece(p: string, s: string, d: char)
    requires d !in p
    ensures Split(p + [d] + s, d) == [p] + Split(s, d)
  {
    var t := p + [d] + s;
    assert t[|p|] == d;
    var i := FirstIndex(t, d);
    assert i == |p| by {
      assert i <= |p| by { assert d in t[..|p| + 1]; }
      assert i >= |p| by { assert forall j :: 0 <= j < |p| ==> t[j] == p[j]; }
    }
    assert t[..i] == p;
    assert t[i + 1..] == s;
  }
}

=== FILE: wrappers.dfy ===
/** Absence and failure values shared by the whole model. */
module Wrappers {

  /** A value that may be missing: JavaScript's `undefined` for an absent property or a failed read. */
  datatype Option<+T> = None | Some(value: T) {

    /** The value, or `default` when it is missing: `x ?? default` for an object-valued `x`. */
    function GetOr(default: T): T
    {
      match this
      case Some(v) => v
      case None => default
    }
  }

  /** Either a value or the error the source would throw instead of returning. */
  datatype Result<+T, +E> = Success(value: T) | Failure(error: E)
}
